=== FILE: README.md ===
# KeePassDX: the KDB entry encoder and `DateInstant`, in Dafny

This project models two pieces of KeePassDX:

- `EntryOutputKDB`, which writes one password entry of a KeePass 1.x (KDB)
  database as a sequence of typed fields;
- `DateInstant`, the timestamp class those entries carry.

An entry record has fifteen fields in a fixed order: UUID, group ID, image ID,
title, URL, username, password, notes, four dates, attachment description,
attachment data, and the end marker. Each field starts with a 2-byte type
code. Most fields then carry a 4-byte size and a payload.

The model has seven modules:

| module | what it holds |
|---|---|
| `Wrappers` | `Option`, `Result` and `Outcome` |
| `Bytes` | the byte type and `Flatten`, which concatenates a sequence of writes |
| `Sinks` | the output stream as a sink that may fail part-way through a write (`Put`), and the loop that makes a series of writes (`WriteAll`) |
| `Utf8` | the UTF-8 encoding of RFC 3629 that `writePassword` applies, with a decoder, so that the password field can be read back |
| `Decimal` | the zero-padded "MM"/"yyyy" fields that `SimpleDateFormat` produces, and Kotlin's `String.toInt()` reading them back |
| `DateInstants` | `DateInstant`: its constructors, the fallback parse, `equals`/`hashCode`, the text forms, the month and year fields, and the two expiry tests |
| `EntryOutputKDB` | the record, read in two ways that are proved equal, and `writeEntry` as a method over a sink |

The record is read in two ways:

- `FieldWrites`/`WritesOf` follow the source's `write` calls one by one.
- `FieldBody`/`Record` state each field's layout as the KDB format gives it.

The encoder is parametric in a `CodeTable`:

- `AsWritten` writes the group-ID type code 1, as the source does.
- `KeePass1` writes the code 2 of the KeePass 1.x layout.

See Findings below.

Everything the core takes from its platform is an explicit parameter:

- the clock reading (`now`);
- the default-locale `SimpleDateFormat`s (`Formats`);
- the resource-locale renderers (`Renderers`);
- the time-zone calendar arithmetic of Joda-Time (`Calendar`);
- the byte helpers defined elsewhere, such as `uIntTo4Bytes` and `writeStringToBytes` (`Helpers`). Their output lengths are the predicate `Conforming`, which only the lemmas that need lengths require;
- the attachment's decrypted stream (`BinaryData.inputDataStream`).

Where the code does something other than its apparent intent, the model
follows the code:

- The String constructor of `DateInstant` does not fall back to "now" when
  every format fails. Its third attempt is unguarded, so the
  `ParseException` escapes (`OfString` returns `Failure`).
- `isNeverExpires()` is false for `NEVER_EXPIRES` itself and for every
  instant within a month before it. It is true only of instants strictly
  earlier than that (`IsNeverExpires`).
- On a completed attachment copy, the stream's `close()` runs twice: once
  explicitly and once by `use`. When an exception leaves the copy loop it
  runs once (`WriteEntry`, `streamCloses`). A `close()` that throws after a
  completed copy fails the entry before its end marker is written, and
  `use` still closes a second time (`CopyAttachment`).

## Model

| member | source | states |
|---|---|---|
| DateInstants.Copy | app/src/main/java/com/kunzisoft/keepass/database/element/DateInstant.kt:46-49 | the copy is `equals` to its source: the same time and the same type |
| DateInstants.ConstructorsStoreTimeAndType | app/src/main/java/com/kunzisoft/keepass/database/element/DateInstant.kt:51-59 | the `Date` and millisecond constructors keep the time and the type, the type defaults to DATE_TIME, and two constructed values are equal exactly when their arguments are |
| DateInstants.ClockConstructorsTakeNow | app/src/main/java/com/kunzisoft/keepass/database/element/DateInstant.kt:102-108 | the type-only constructor stores the current time with the requested type; the no-argument one stores the current time as DATE_TIME |
| DateInstants.SetType | app/src/main/java/com/kunzisoft/keepass/database/element/DateInstant.kt:40-44 | the `type` setter keeps the instant; the value stays `equals` to the original exactly when the type is unchanged, and setting the old type back restores it |
| DateInstants.ParseAsReadsOnlyItsFormatter | app/src/main/java/com/kunzisoft/keepass/database/element/DateInstant.kt:61-67 | the private `parse` (`ParseAs`) reads only the formatter its type selects: two format sets that agree on it give the same result; it reads the construction-time clock exactly when that formatter returns null, so there two different clocks give different results and otherwise the clock plays no part |
| DateInstants.OfString | app/src/main/java/com/kunzisoft/keepass/database/element/DateInstant.kt:61-100 | on success, the stored time is what the stored type's formatter reads from the text (or the construction time when it reads null); on failure, none of the three formatters could read it |
| DateInstants.FallbackOrder | app/src/main/java/com/kunzisoft/keepass/database/element/DateInstant.kt:76-97 | the constructor tries the requested type first, then the other two types, each exactly once |
| DateInstants.OfStringFollowsFallbackOrder | app/src/main/java/com/kunzisoft/keepass/database/element/DateInstant.kt:69-100 | the nested tries succeed exactly when some type along the fallback order parses; the result is the first type that does, stored with that type; when all fail, the escaping error is that of the third try |
| DateInstants.OfStringStoresFirstParsingType | app/src/main/java/com/kunzisoft/keepass/database/element/DateInstant.kt:69-100 | every type tried before the stored one failed to parse |
| DateInstants.TimeRequestReadAsDate | app/src/main/java/com/kunzisoft/keepass/database/element/DateInstant.kt:76-80 | a TIME request that the time format rejects and the date format reads is stored as a DATE |
| DateInstants.ToStringReparses | app/src/main/java/com/kunzisoft/keepass/database/element/DateInstant.kt:157-163 | `toString()` (`ToString`) round-trips through the String constructor: text that the same type's formatter reads back gives a value with the original type |
| DateInstants.ToStringIgnoresOtherFormats | app/src/main/java/com/kunzisoft/keepass/database/element/DateInstant.kt:157-163 | `toString()` (`ToString`) depends only on the formatter of the value's own type |
| DateInstants.DisplayStringIgnoresOtherRenderers | app/src/main/java/com/kunzisoft/keepass/database/element/DateInstant.kt:124-130 | `getDateTimeString` (`DisplayString`) depends only on the renderer of the value's own type |
| DateInstants.Equals | app/src/main/java/com/kunzisoft/keepass/database/element/DateInstant.kt:165-173 | `equals` holds exactly when the other object is a DateInstant with the same time and type; it is false for null and for other classes |
| DateInstants.EqualsIsEquivalence | app/src/main/java/com/kunzisoft/keepass/database/element/DateInstant.kt:165-173 | `equals` is reflexive, symmetric and transitive, and false for null |
| DateInstants.HashCode | app/src/main/java/com/kunzisoft/keepass/database/element/DateInstant.kt:175-179 | `hashCode()` wrapped step by step in `Int` arithmetic equals one 32-bit wrap of `31 * jDate.hashCode() + mType.hashCode()` |
| DateInstants.EqualsConsistentWithHashCode | app/src/main/java/com/kunzisoft/keepass/database/element/DateInstant.kt:175-179 | equal values have equal `hashCode()` (32-bit `31 * h + typeHash`, with `Date.hashCode` folding the 64-bit time), whatever the enum's hash |
| DateInstants.GetMonthInt | app/src/main/java/com/kunzisoft/keepass/database/element/DateInstant.kt:235-238 | formatting the month as "MM" and reading it back with `toInt()` gives the calendar month, in 1..12, with no NumberFormatException |
| DateInstants.GetYearInt | app/src/main/java/com/kunzisoft/keepass/database/element/DateInstant.kt:240-243 | formatting the year as "yyyy" and reading it back gives the calendar year of era, always at least 1 |
| DateInstants.IsNeverExpires | app/src/main/java/com/kunzisoft/keepass/database/element/DateInstant.kt:140-147 | when `minusMonths(1)` steps back, only an instant whose local time is before that of `NEVER_EXPIRES` can count as never expiring; `NEVER_EXPIRES` itself never does |
| DateInstants.NeverExpiresDownwardClosed | app/src/main/java/com/kunzisoft/keepass/database/element/DateInstant.kt:140-147 | when local time never decreases as the instant grows (a time zone without a fall-back), every instant earlier than one that never expires also never expires, whatever the types |
| DateInstants.IsCurrentlyExpire | app/src/main/java/com/kunzisoft/keepass/database/element/DateInstant.kt:149-155 | a value is never expired at the very instant it names, at any of the three granularities |
| DateInstants.DateTimeExpiredIffPast | app/src/main/java/com/kunzisoft/keepass/database/element/DateInstant.kt:149-155 | when local time strictly increases with the instant (a time zone without a fall-back), a DATE_TIME value is expired exactly when its instant is before now |
| DateInstants.RepeatedHourHidesExpiry | app/src/main/java/com/kunzisoft/keepass/database/element/DateInstant.kt:153 | in the hour a fall-back repeats, a DATE_TIME value forty minutes in the past is not expired |
| DateInstants.DateNotExpiredBeforeItsDay | app/src/main/java/com/kunzisoft/keepass/database/element/DateInstant.kt:149-155 | when local date-times and their dates never decrease as the instant grows, a DATE value whose instant is not yet reached is not expired |
| DateInstants.DateExpiryIgnoresTimeOfDay | app/src/main/java/com/kunzisoft/keepass/database/element/DateInstant.kt:151 | two DATE values on the same local calendar date are expired together, whatever their times of day |
| DateInstants.DateEarlierTodayNotExpired | app/src/main/java/com/kunzisoft/keepass/database/element/DateInstant.kt:151-153 | a DATE value earlier on today's local date is not expired although its instant has passed, while a DATE_TIME value at the same instant is (given strictly increasing local time) |
| DateInstants.TimeExpiryIgnoresDate | app/src/main/java/com/kunzisoft/keepass/database/element/DateInstant.kt:152 | two TIME values with the same time of day are expired together, whatever their dates |
| Decimal.ToInt | app/src/main/java/com/kunzisoft/keepass/database/element/DateInstant.kt:237 | `toInt()` either throws or yields a value in the 32-bit `Int` range |
| Decimal.ToIntZeroPadded | app/src/main/java/com/kunzisoft/keepass/database/element/DateInstant.kt:235-243 | reading back a zero-padded numeral of any width gives the number it was made from |
| Utf8.EncodeChar | app/src/main/java/com/kunzisoft/keepass/database/file/output/EntryOutputKDB.kt:136 | each character takes one to four bytes, every byte after the first is a continuation byte, and only U+0000 produces a zero byte |
| Utf8.DecodeEncode | app/src/main/java/com/kunzisoft/keepass/database/file/output/EntryOutputKDB.kt:136 | decoding the UTF-8 bytes of a string gives the string back |
| Utf8.EncodeLength | app/src/main/java/com/kunzisoft/keepass/database/file/output/EntryOutputKDB.kt:136-137 | the byte count is between one and four times the character count |
| Utf8.EncodeHasNoNul | app/src/main/java/com/kunzisoft/keepass/database/file/output/EntryOutputKDB.kt:136-140 | a string without U+0000 encodes to bytes without a zero byte, so the terminating NUL is the first zero byte |
| Utf8.EncodeAscii | app/src/main/java/com/kunzisoft/keepass/database/file/output/EntryOutputKDB.kt:136 | an ASCII string encodes to one byte per character, equal to its code |
| Sinks.Put | app/src/main/java/com/kunzisoft/keepass/database/file/output/EntryOutputKDB.kt:46-48 | one `write` returns normally exactly when the bytes fit; the sink keeps what it had and gains a prefix of the bytes, all of them on success and exactly as many as it had room for on failure |
| Sinks.PutConcat | app/src/main/java/com/kunzisoft/keepass/database/file/output/EntryOutputKDB.kt:44-115 | two successive writes act as one write of the concatenation; a write that fails makes anything appended to it fail at the same point |
| Sinks.WriteAll | app/src/main/java/com/kunzisoft/keepass/database/file/output/EntryOutputKDB.kt:105-108 | a series of writes, stopping at the first exception, leaves the sink as one write of all their bytes would |
| EntryOutputKDB.TypeCodesAsWritten | app/src/main/java/com/kunzisoft/keepass/database/file/output/EntryOutputKDB.kt:145-159 | the type codes in field order: 1, 1, 3 … 14, 0xFFFF as written, and 1, 2, 3 … 14, 0xFFFF in the KeePass 1.x table |
| EntryOutputKDB.AsWrittenGroupIdReusesUuidCode | app/src/main/java/com/kunzisoft/keepass/database/file/output/EntryOutputKDB.kt:145-159 | as written, the UUID and group-ID fields share code 1, and no other two fields share a code |
| EntryOutputKDB.KeePass1TypeCodesDistinct | app/src/main/java/com/kunzisoft/keepass/database/file/output/EntryOutputKDB.kt:145-159 | with group-ID code 2, every field has a code of its own |
| EntryOutputKDB.WriteDate | app/src/main/java/com/kunzisoft/keepass/database/file/output/EntryOutputKDB.kt:121-132 | a date field is always 11 bytes: the type, size 5, then the packed date, or five zero bytes when there is none |
| EntryOutputKDB.WritePassword | app/src/main/java/com/kunzisoft/keepass/database/file/output/EntryOutputKDB.kt:134-142 | the returned length is the UTF-8 byte count plus one and is written as the 4-byte size, which counts exactly the bytes after it; a reader that takes the bytes up to the NUL and decodes them as UTF-8 gets the password back, if the password has no U+0000 |
| EntryOutputKDB.PasswordHunter2 | app/src/main/java/com/kunzisoft/keepass/database/file/output/EntryOutputKDB.kt:134-142 | "hunter2" is written with size 8, followed by its seven ASCII bytes and a NUL |
| EntryOutputKDB.FieldWritesMatchLayout | app/src/main/java/com/kunzisoft/keepass/database/file/output/EntryOutputKDB.kt:44-115 | for every field, the source's `write` calls produce the field's bytes as the format lays them out; for the attachment this holds once the streamed data is appended |
| EntryOutputKDB.WritesOfMatchLayout | app/src/main/java/com/kunzisoft/keepass/database/file/output/EntryOutputKDB.kt:44-95 | the same holds for any run of fields without the attachment |
| EntryOutputKDB.RecordIsHeadDataEnd | app/src/main/java/com/kunzisoft/keepass/database/file/output/EntryOutputKDB.kt:44-115 | the writes up to the attachment's size, then the streamed data, then the end marker, make up exactly the record |
| EntryOutputKDB.FixedFieldsMatchDeclaredSize | app/src/main/java/com/kunzisoft/keepass/database/file/output/EntryOutputKDB.kt:45-91 | each fixed-size field's payload has exactly the declared 16, 4 or 5 bytes, and the end marker has 0; the password field declares its own size; any of the four dates without packed bytes is five zero bytes |
| EntryOutputKDB.AttachmentFieldTrustsDeclaredLength | app/src/main/java/com/kunzisoft/keepass/database/file/output/EntryOutputKDB.kt:97-111 | the attachment field is the declared length followed by the streamed data; there is no data when the length is not positive or there is no attachment; the field's size is right when the stream delivers the declared length, and, for a `uIntTo4Bytes` that tells apart every unsigned 32-bit value and counts in that range, only then |
| EntryOutputKDB.DeclaredLengthNotReconciled | app/src/main/java/com/kunzisoft/keepass/database/file/output/EntryOutputKDB.kt:99-111 | an attachment declared as 3 bytes whose stream yields one byte is written as size 3 and a single byte |
| EntryOutputKDB.RecordStartsWithUuidThenGroupId | app/src/main/java/com/kunzisoft/keepass/database/file/output/EntryOutputKDB.kt:45-53 | the record opens with the 22-byte UUID field and the 10-byte group-ID field; as written, both begin with the same type bytes |
| EntryOutputKDB.RecordEndsWithTerminator | app/src/main/java/com/kunzisoft/keepass/database/file/output/EntryOutputKDB.kt:113-115 | the record's last six bytes are type 0xFFFF and size 0 |
| EntryOutputKDB.RecordLength | app/src/main/java/com/kunzisoft/keepass/database/file/output/EntryOutputKDB.kt:44-115 | the record is 115 bytes plus the five strings as written, the password's UTF-8 bytes and the attachment data |
| EntryOutputKDB.AttachmentLength | app/src/main/java/com/kunzisoft/keepass/database/file/output/EntryOutputKDB.kt:99-100 | no attachment gives length 0, so the stream is opened only for an attachment that exists and declares a positive length |
| EntryOutputKDB.CopyAttachment | app/src/main/java/com/kunzisoft/keepass/database/file/output/EntryOutputKDB.kt:104-110 | the `use` block writes the streamed data up to the sink's room; the exception that leaves it is the sink's, else the stream's read failure, else its close failure, and there is none exactly when all three succeed; the stream is closed twice when the reads complete, whether or not a close throws, and once otherwise |
| EntryOutputKDB.WriteInParts | app/src/main/java/com/kunzisoft/keepass/database/file/output/EntryOutputKDB.kt:44-115 | the head writes, the copy of an opened stream and the end marker go to the sink in that order: it receives a prefix of the three together, all of it exactly when the room reaches and neither the reads nor the close fail; a read or close failure leaves exactly the head and the data written, and is reported only when the sink took them all |
| EntryOutputKDB.WriteEntry | app/src/main/java/com/kunzisoft/keepass/database/file/output/EntryOutputKDB.kt:40-119 | the sink receives a prefix of the record, and all of it exactly when the sink has room and the stream neither fails to read nor to close; a failing sink keeps every byte it accepted; each IOException becomes a DatabaseOutputException naming its cause; the cause is the stream's read exactly when the reads fail after everything before them was accepted, and its close exactly when the copy completed and `close()` throws; either stream failure leaves everything up to the end marker written and nothing after it; an opened stream is closed once when an exception leaves the copy loop and twice when the copy completes |

## Left out

- `Parcelable` support (the Parcel constructor, `writeToParcel`, `describeContents`, `CREATOR`) is Android serialisation of the same two fields. It is not modelled.
- How `NEVER_EXPIRES` and `IN_ONE_MONTH_*`/`IN_ONE_HOUR_TIME` are built is not modelled. They read the platform clock and calendar, and `NEVER_EXPIRES` is a parameter of `IsNeverExpires`.
- `isSameDate`, `LONG_FOUR`, `LEVEL_FIELD_SIZE` and `FLAGS_FIELD_SIZE` are unused by the modelled code. They are not modelled.
- `SimpleDateFormat`, `java.text.DateFormat`, Joda-Time and the default time zone are platform code. They are parameters (`Formats`, `Renderers`, `Calendar`). Daylight-saving differences between `LocalDateTime(Date)` and `LocalDateTime.fromDateFields` are one function, `Calendar.local`.
- The bodies of `uShortTo2Bytes`, `uIntTo4Bytes`, `uuidTo16Bytes`, `dateTo5Bytes` and `StringDatabaseKDBUtils.writeStringToBytes` are defined outside this code. They are `Helpers` parameters constrained only in length.
- `UnsignedInt(...)` and `UnsignedInt.fromKotlinLong` are defined outside this code. The model passes the signed value to `intBytes` unchanged.
- Decrypting an attachment (`getInputDataStream`) is a parameter, and its own failure to open is not modelled.
- A `close()` that throws after a failed copy only adds a suppressed exception to the one `use` rethrows. The model keeps the first cause and does not record the suppressed one.
- The `BUFFER_SIZE_BYTES` bound on chunk size is not modelled. The stream's chunks are arbitrary.
- An `OutputStream` that fails after writing part of a buffer is modelled as byte-granular room. Streams that fail by other patterns are not modelled.
- Lone UTF-16 surrogates in a password have no counterpart among Dafny's scalar-value characters. Java's replacement of them by '?' is not modelled.
- DateInstants.Copy: values are immutable. The source class is mutable: `type` has a public setter (modelled as `SetType`), and the `date` getter hands out the internal `java.util.Date`, which a caller can change with `setTime`. The copy and `Date` constructors allocate a fresh `Date` so that such changes do not reach the other value. Aliasing between instances is not modelled.
- DateInstants.DateTimeExpiredIffPast: holds only for time zones without a fall-back. When the clocks go back, the local date-time repeats an hour, and `isCurrentlyExpire()` compares local date-times. A DATE_TIME value set early in the repeated hour is then not expired until the second pass reaches it (`RepeatedHourHidesExpiry`). `NeverExpiresDownwardClosed` and `DateNotExpiredBeforeItsDay` carry the same condition.
- Decimal.ToInt: reads ASCII digits only. Kotlin's `toInt()` also accepts other Unicode decimal digits, which the "MM"/"yyyy" fields never contain.
- EntryOutputKDB.WriteEntry: requires a parent group. The source's `parent!!` throws a NullPointerException there, which is not an IOException and escapes uncaught.
- DateInstants.HashCode: the enum's `hashCode()` is an identity hash, so it is a parameter. The lemma holds for every choice.

## Findings

| source | as written | input that shows it | evidently intended | confidence | as-written member | corrected member |
|---|---|---|---|---|---|---|
| app/src/main/java/com/kunzisoft/keepass/database/file/output/EntryOutputKDB.kt:146 | `GROUPID_FIELD_TYPE` is `uShortTo2Bytes(1)`, the same code as `UUID_FIELD_TYPE` | any entry: its record opens with two fields of type 1, so a KDB reader takes the group ID for a second UUID field | type 2, the group-ID field of the KeePass 1.x entry layout | high, not executed | EntryOutputKDB.AsWrittenGroupIdReusesUuidCode | EntryOutputKDB.KeePass1TypeCodesDistinct |

The encoder takes the code table as a parameter. `AsWritten` reproduces the
code as written. `KeePass1` is the corrected table, under which every field
type has a code of its own. Every other lemma and `WriteEntry` hold for both
tables.

=== FILE: bytes.dfy ===
/** Bytes and sequences of byte chunks. */
module Bytes {

  /** An unsigned byte as written to an `OutputStream`. */
  type byte = x: int | 0 <= x < 0x100

  /** The concatenation of a sequence of chunks, in order. */
  function Flatten(chunks: seq<seq<byte>>): seq<byte>
  {
    if |chunks| == 0 then [] else chunks[0] + Flatten(chunks[1..])
  }

  lemma {:induction false} FlattenConcat(a: seq<seq<byte>>, b: seq<seq<byte>>)
    ensures Flatten(a + b) == Flatten(a) + Flatten(b)
    decreases |a|
  {
    if |a| == 0 {
      assert a + b == b;
    } else {
      assert (a + b)[1..] == a[1..] + b;
      FlattenConcat(a[1..], b);
    }
  }

  lemma FlattenSnoc(a: seq<seq<byte>>, c: seq<byte>)
    ensures Flatten(a + [c]) == Flatten(a) + c
  {
    FlattenConcat(a, [c]);
    assert Flatten([c]) == c + Flatten([]);
  }
}

=== FILE: date_instant.dfy ===
/** DateInstant: a point in time (milliseconds since the epoch) tagged with
    the granularity its text form and its expiry test honour.

    What the class takes from its platform is passed in explicitly:
    the clock reading that `Date()` and `now()` would take (`now`), the three
    default-locale `SimpleDateFormat`s (`Formats`), the resource-locale
    renderers (`Renderers`), and the calendar arithmetic of the default time
    zone (`Calendar`). */
module DateInstants {
  import opened Wrappers
  import Decimal

  /** Kotlin `Long`; Kotlin `Int` is `Decimal.Int`. */
  type Long = x: int | -0x8000_0000_0000_0000 <= x < 0x8000_0000_0000_0000
  type Int = Decimal.Int

  /** `DateInstant.Type`. */
  datatype DateType = DateTime | Date | Time

  datatype DateInstant = DateInstant(millis: Long, dateType: DateType)

  // Constructors

  /** `DateInstant(source)`: a copy with its own `Date`. */
  function Copy(source: DateInstant): (r: DateInstant)
    ensures Equals(r, Some(source))
  {
    DateInstant(source.millis, source.dateType)
  }

  /** `DateInstant(date, type)`; `date` is the `Date`'s `time`. */
  function OfDate(date: Long, dateType: DateType := DateTime): DateInstant
  {
    DateInstant(date, dateType)
  }

  /** `DateInstant(millis, type)`. */
  function OfMillis(millis: Long, dateType: DateType := DateTime): DateInstant
  {
    DateInstant(millis, dateType)
  }

  /** `DateInstant(type)`: the current time at the given granularity. */
  function OfType(dateType: DateType, now: Long): DateInstant
  {
    DateInstant(now, dateType)
  }

  /** `DateInstant()`: the current time as a date-time. */
  function OfNow(now: Long): DateInstant
  {
    DateInstant(now, DateTime)
  }

  /** The `Date` and millisecond constructors store what they are given,
      default to DATE_TIME, and distinct arguments give distinct values. */
  lemma ConstructorsStoreTimeAndType(m1: Long, t1: DateType, m2: Long, t2: DateType)
    ensures OfDate(m1, t1) == OfMillis(m1, t1)
    ensures OfMillis(m1).dateType == DateTime && OfDate(m1).dateType == DateTime
    ensures OfMillis(m1) == OfMillis(m1, DateTime)
    ensures Equals(OfMillis(m1, t1), Some(OfMillis(m2, t2))) <==> m1 == m2 && t1 == t2
  {
  }

  /** The type-only and no-argument constructors read the clock: the type
      constructor keeps the requested type, the other one is a DATE_TIME. */
  lemma ClockConstructorsTakeNow(t: DateType, now: Long)
    ensures OfType(t, now).millis == now && OfType(t, now).dateType == t
    ensures OfNow(now) == OfType(DateTime, now)
  {
  }

  /** The `type` setter: the same instant at another granularity. The value
      stays `equals` to the original exactly when the type is unchanged, and
      setting the old type back restores it. */
  function SetType(d: DateInstant, t: DateType): (r: DateInstant)
    ensures r.millis == d.millis && r.dateType == t
    ensures Equals(r, Some(d)) <==> t == d.dateType
    ensures r.(dateType := d.dateType) == d
  {
    d.(dateType := t)
  }

  // Parsing from text

  /** What `SimpleDateFormat.parse` does with a string: a date, null, or a
      thrown ParseException. */
  datatype ParseOutcome = Parsed(millis: Long) | ParsedNull | ParseException

  datatype Formatter = Formatter(format: Long -> string, parse: string -> ParseOutcome)

  /** The three default-locale formatters of the companion object. */
  datatype Formats = Formats(dateTime: Formatter, date: Formatter, time: Formatter)

  /** The formatter a type selects, in `parse` and in `toString` alike. */
  function FormatterFor(formats: Formats, t: DateType): Formatter
  {
    match t
    case Date => formats.date
    case Time => formats.time
    case DateTime => formats.dateTime
  }

  /** The private `parse(value, type)`: None when the formatter throws; a null
      result falls back to `current`, the instance's `Date()` of construction. */
  function ParseAs(formats: Formats, current: Long, value: string, t: DateType): Option<Long>
  {
    match FormatterFor(formats, t).parse(value)
    case Parsed(ms) => Some(ms)
    case ParsedNull => Some(current)
    case ParseException => None
  }

  /** The private `parse` reads only the formatter its type selects, and reads
      the construction-time clock exactly when that formatter returns null:
      two format sets that agree on that formatter give the same result at
      the same clock, and a null parse tells two different clocks apart. */
  lemma ParseAsReadsOnlyItsFormatter(f1: Formats, f2: Formats, c1: Long, c2: Long, value: string, t: DateType)
    requires FormatterFor(f1, t).parse(value) == FormatterFor(f2, t).parse(value)
    ensures c1 == c2 ==> ParseAs(f1, c1, value, t) == ParseAs(f2, c2, value, t)
    ensures !FormatterFor(f1, t).parse(value).ParsedNull? ==>
      ParseAs(f1, c1, value, t) == ParseAs(f2, c2, value, t)
    ensures FormatterFor(f1, t).parse(value).ParsedNull? ==>
      (ParseAs(f1, c1, value, t) == ParseAs(f2, c2, value, t) <==> c1 == c2)
  {
  }

  /** The exception that escapes the String constructor: the one thrown by its
      third, unguarded attempt. */
  datatype ParseError = ParseError(value: string, lastAttempt: DateType)

  /** `DateInstant(string, type)`, as written: a guarded first attempt at the
      requested type, a guarded second one, and an unguarded third one. */
  function OfString(formats: Formats, now: Long, value: string, dateType: DateType := DateTime)
    : (r: Result<DateInstant, ParseError>)
    ensures r.Success? ==> ParseAs(formats, now, value, r.value.dateType) == Some(r.value.millis)
    ensures r.Failure? ==> forall t :: ParseAs(formats, now, value, t).None?
  {
    match ParseAs(formats, now, value, dateType)
    case Some(ms) => Success(DateInstant(ms, dateType))
    case None =>
      var second := if dateType == Time then Date else Time;
      match ParseAs(formats, now, value, second)
      case Some(ms) => Success(DateInstant(ms, second))
      case None =>
        var third := if dateType == Date || dateType == Time then DateTime else Date;
        match ParseAs(formats, now, value, third)
        case Some(ms) => Success(DateInstant(ms, third))
        case None => Failure(ParseError(value, third))
  }

  /** The order in which the String constructor tries the formats. */
  function FallbackOrder(requested: DateType): (order: seq<DateType>)
    ensures |order| == 3 && order[0] == requested
    ensures DateTime in order && Date in order && Time in order
    ensures order[0] != order[1] && order[1] != order[2] && order[0] != order[2]
  {
    match requested
    case Time => [Time, Date, DateTime]
    case Date => [Date, Time, DateTime]
    case DateTime => [DateTime, Time, Date]
  }

  /** Reference reading of the fallback: the first type in `order` whose
      parse succeeds, stored with that type. */
  function FirstParsed(formats: Formats, now: Long, value: string, order: seq<DateType>): Option<DateInstant>
  {
    if |order| == 0 then None
    else match ParseAs(formats, now, value, order[0])
      case Some(ms) => Some(DateInstant(ms, order[0]))
      case None => FirstParsed(formats, now, value, order[1..])
  }

  /** The nested attempts of the constructor are exactly "first success along
      `FallbackOrder`", and on failure the third type's exception escapes. */
  lemma OfStringFollowsFallbackOrder(formats: Formats, now: Long, value: string, requested: DateType)
    ensures OfString(formats, now, value, requested).Success?
      <==> FirstParsed(formats, now, value, FallbackOrder(requested)).Some?
    ensures OfString(formats, now, value, requested).Success? ==>
      OfString(formats, now, value, requested).value
        == FirstParsed(formats, now, value, FallbackOrder(requested)).value
    ensures OfString(formats, now, value, requested).Failure? ==>
      OfString(formats, now, value, requested).error == ParseError(value, FallbackOrder(requested)[2])
  {
    var order := FallbackOrder(requested);
    var p := (t: DateType) => ParseAs(formats, now, value, t);
    assert order[1..] == [order[1], order[2]];
    assert order[1..][1..] == [order[2]];
    assert FirstParsed(formats, now, value, order[1..][1..][1..]) == None;
    assert FirstParsed(formats, now, value, order[1..][1..])
      == if p(order[2]).Some? then Some(DateInstant(p(order[2]).value, order[2])) else None;
    assert FirstParsed(formats, now, value, order[1..])
      == if p(order[1]).Some? then Some(DateInstant(p(order[1]).value, order[1]))
         else FirstParsed(formats, now, value, order[1..][1..]);
  }

  /** Every type tried before the stored one failed to parse. */
  lemma OfStringStoresFirstParsingType(
    formats: Formats, now: Long, value: string, requested: DateType, i: nat)
    requires OfString(formats, now, value, requested).Success?
    requires i < 3 && FallbackOrder(requested)[i] == OfString(formats, now, value, requested).value.dateType
    ensures forall j :: 0 <= j < i ==> ParseAs(formats, now, value, FallbackOrder(requested)[j]).None?
  {
  }

  /** A string the time format rejects but the date format reads, requested
      as TIME, comes back as a DATE. */
  lemma TimeRequestReadAsDate(formats: Formats, now: Long, value: string, ms: Long)
    requires ParseAs(formats, now, value, Time).None?
    requires ParseAs(formats, now, value, Date) == Some(ms)
    ensures OfString(formats, now, value, Time) == Success(DateInstant(ms, Date))
  {
  }

  // Text forms

  /** `toString()`: the default-locale format of the value's type. */
  function ToString(formats: Formats, d: DateInstant): string
  {
    FormatterFor(formats, d.dateType).format(d.millis)
  }

  /** Rendering with a formatter that reads its own output back, then parsing
      at the same type, recovers the value with its type. */
  lemma ToStringReparses(formats: Formats, now: Long, d: DateInstant, ms: Long)
    requires FormatterFor(formats, d.dateType).parse(ToString(formats, d)) == Parsed(ms)
    ensures OfString(formats, now, ToString(formats, d), d.dateType) == Success(DateInstant(ms, d.dateType))
  {
  }

  /** `toString` reads only the formatter of the value's own type. */
  lemma ToStringIgnoresOtherFormats(formats: Formats, d: DateInstant, f: Formatter)
    ensures d.dateType != DateTime ==> ToString(formats.(dateTime := f), d) == ToString(formats, d)
    ensures d.dateType != Date ==> ToString(formats.(date := f), d) == ToString(formats, d)
    ensures d.dateType != Time ==> ToString(formats.(time := f), d) == ToString(formats, d)
  {
  }

  /** The resource-locale renderers: medium date with short time, medium date,
      short time. */
  datatype Renderers = Renderers(dateTime: Long -> string, date: Long -> string, time: Long -> string)

  /** `getDateTimeString(resources)`. */
  function DisplayString(renderers: Renderers, d: DateInstant): string
  {
    match d.dateType
    case Date => renderers.date(d.millis)
    case Time => renderers.time(d.millis)
    case DateTime => renderers.dateTime(d.millis)
  }

  /** `getDateTimeString` reads only the renderer of the value's own type. */
  lemma DisplayStringIgnoresOtherRenderers(renderers: Renderers, d: DateInstant, f: Long -> string)
    ensures d.dateType != DateTime ==>
      DisplayString(renderers.(dateTime := f), d) == DisplayString(renderers, d)
    ensures d.dateType != Date ==> DisplayString(renderers.(date := f), d) == DisplayString(renderers, d)
    ensures d.dateType != Time ==> DisplayString(renderers.(time := f), d) == DisplayString(renderers, d)
  {
  }

  // Equality and hashing

  /** `equals(other)`: None stands for null or an object of another class. */
  function Equals(a: DateInstant, other: Option<DateInstant>): (r: bool)
    ensures r <==> other == Some(a)
  {
    match other
    case None => false
    case Some(o) =>
      if a.millis != o.millis then false
      else if a.dateType != o.dateType then false
      else true
  }

  /** Kotlin `Int` arithmetic: the 32-bit two's-complement wrap of `x`. */
  function Wrap32(x: int): Int
  {
    var m := x % 0x1_0000_0000;
    if m < 0x8000_0000 then m else m - 0x1_0000_0000
  }

  /** `java.util.Date.hashCode()`: `(int)(t ^ (t >>> 32))` of the time `t`. */
  function DateHashCode(millis: Long): Int
  {
    var bits := (if millis < 0 then millis + 0x1_0000_0000_0000_0000 else millis) as bv64;
    var mixed := bits ^ (bits >> 32);
    Wrap32((mixed & 0xFFFF_FFFF) as int)
  }

  /** `hashCode()`: `31 * jDate.hashCode() + mType.hashCode()` in `Int`
      arithmetic; the enum's hash is the platform's identity hash, passed in. */
  function HashCode(d: DateInstant, typeHash: DateType -> Int): (r: Int)
    ensures r == Wrap32(31 * DateHashCode(d.millis) + typeHash(d.dateType))
  {
    WrapAdd(31 * DateHashCode(d.millis), typeHash(d.dateType));
    Wrap32(Wrap32(31 * DateHashCode(d.millis)) + typeHash(d.dateType))
  }

  /** Wrapping an intermediate sum changes nothing: `Int` addition is
      addition modulo 2^32. */
  lemma WrapAdd(x: int, y: int)
    ensures Wrap32(Wrap32(x) + y) == Wrap32(x + y)
  {
  }

  /** Equal values hash equally, for any identity hash of the enum. */
  lemma EqualsConsistentWithHashCode(a: DateInstant, b: DateInstant, typeHash: DateType -> Int)
    requires Equals(a, Some(b))
    ensures HashCode(a, typeHash) == HashCode(b, typeHash)
  {
  }

  /** `equals` is an equivalence relation and never holds for null. */
  lemma EqualsIsEquivalence(a: DateInstant, b: DateInstant, c: DateInstant)
    ensures Equals(a, Some(a))
    ensures !Equals(a, None)
    ensures Equals(a, Some(b)) ==> Equals(b, Some(a))
    ensures Equals(a, Some(b)) && Equals(b, Some(c)) ==> Equals(a, Some(c))
  {
  }

  // Calendar fields and expiry

  type Month = m: int | 1 <= m <= 12 witness 1
  /** A `yyyy` year of era of the Gregorian calendar, as `java.util.Calendar` bounds it. */
  type YearOfEra = y: int | 1 <= y <= 292278994 witness 1

  /** The default time zone's calendar, as Joda-Time and `SimpleDateFormat`
      see it. Local date-times, dates and times of day are ordered keys. */
  datatype Calendar = Calendar(
    local: Long -> int,          // LocalDateTime of an instant
    dateOf: int -> int,          // the LocalDate of a local date-time
    timeOf: int -> int,          // the LocalTime of a local date-time
    minusOneMonth: int -> int,   // LocalDateTime.minusMonths(1)
    monthOfYear: Long -> Month,  // the "MM" field of an instant
    yearOfEra: Long -> YearOfEra // the "yyyy" field of an instant
  )

  /** `getMonthInt()`: the "MM" field formatted, then read back by `toInt()`. */
  function GetMonthInt(cal: Calendar, d: DateInstant): (r: int)
    ensures r == cal.monthOfYear(d.millis)
    ensures 1 <= r <= 12
  {
    var month := cal.monthOfYear(d.millis);
    Decimal.ToIntZeroPadded(month, 2);
    Decimal.ToInt(Decimal.ZeroPadded(month, 2)).value
  }

  /** `getYearInt()`: the "yyyy" field formatted, then read back by `toInt()`. */
  function GetYearInt(cal: Calendar, d: DateInstant): (r: int)
    ensures r == cal.yearOfEra(d.millis)
    ensures r >= 1
  {
    var year := cal.yearOfEra(d.millis);
    Decimal.ToIntZeroPadded(year, 4);
    Decimal.ToInt(Decimal.ZeroPadded(year, 4)).value
  }

  ghost predicate MonthStepsBack(cal: Calendar)
  {
    forall k :: cal.minusOneMonth(k) < k
  }

  ghost predicate LocalMonotone(cal: Calendar)
  {
    forall a: Long, b: Long :: a <= b ==> cal.local(a) <= cal.local(b)
  }

  /** `isNeverExpires()`: the local date-time is strictly before that of
      `NEVER_EXPIRES` less one month; the type plays no part. With
      `minusMonths(1)` stepping back, only instants whose local time is
      before the sentinel's can hold, so the sentinel itself never does. */
  function IsNeverExpires(cal: Calendar, neverExpires: DateInstant, d: DateInstant): (r: bool)
    ensures MonthStepsBack(cal) && r ==> cal.local(d.millis) < cal.local(neverExpires.millis)
  {
    var k := cal.local(neverExpires.millis);
    assert MonthStepsBack(cal) ==> cal.minusOneMonth(k) < k;
    cal.local(d.millis) < cal.minusOneMonth(k)
  }

  /** With local time following the instant, "never expires" holds of every
      instant earlier than one it holds of, whatever the types. */
  lemma NeverExpiresDownwardClosed(
    cal: Calendar, neverExpires: DateInstant, earlier: DateInstant, later: DateInstant)
    requires LocalMonotone(cal)
    requires earlier.millis <= later.millis
    requires IsNeverExpires(cal, neverExpires, later)
    ensures IsNeverExpires(cal, neverExpires, earlier)
  {
  }

  /** `isCurrentlyExpire()`: strictly before now, comparing calendar dates for
      DATE, times of day for TIME and local date-times otherwise. */
  function IsCurrentlyExpire(cal: Calendar, d: DateInstant, now: Long): (r: bool)
    ensures d.millis == now ==> !r
  {
    match d.dateType
    case Date => cal.dateOf(cal.local(d.millis)) < cal.dateOf(cal.local(now))
    case Time => cal.timeOf(cal.local(d.millis)) < cal.timeOf(cal.local(now))
    case DateTime => cal.local(d.millis) < cal.local(now)
  }

  /** A DATE_TIME value is expired exactly when its instant is in the past,
      given local time strictly increasing with the instant. */
  lemma DateTimeExpiredIffPast(cal: Calendar, d: DateInstant, now: Long)
    requires forall a: Long, b: Long :: a < b ==> cal.local(a) < cal.local(b)
    requires d.dateType == DateTime
    ensures IsCurrentlyExpire(cal, d, now) <==> d.millis < now
  {
    if d.millis >= now && d.millis != now {
      assert cal.local(now) < cal.local(d.millis);
    }
  }

  /** 2023-11-05T06:00:00Z, when New York's clocks go back from 02:00 EDT
      to 01:00 EST. */
  const FallBack: Long := 1_699_164_000_000

  /** A calendar whose local clock repeats the hour before `FallBack`. */
  function FallBackCalendar(): Calendar
  {
    Calendar(
      (ms: Long) => if ms < FallBack then ms else ms - 3_600_000,
      (k: int) => k / 86_400_000,
      (k: int) => k % 86_400_000,
      (k: int) => k - 2_592_000_000,
      (ms: Long) => 11,
      (ms: Long) => 2023)
  }

  /** Without monotone local time the DATE_TIME test can miss the past: in
      the repeated hour, a value set at 01:30 EDT is not expired at 01:10
      EST, forty minutes later. */
  lemma RepeatedHourHidesExpiry()
    ensures var d := DateInstant(FallBack - 1_800_000, DateTime);
      var now := FallBack + 600_000;
      d.millis < now && !IsCurrentlyExpire(FallBackCalendar(), d, now)
  {
  }

  /** A DATE value is never expired before its instant is reached, given
      local date-times and their dates both following the instant. */
  lemma DateNotExpiredBeforeItsDay(cal: Calendar, d: DateInstant, now: Long)
    requires LocalMonotone(cal)
    requires forall x, y :: x <= y ==> cal.dateOf(x) <= cal.dateOf(y)
    requires d.dateType == Date && now <= d.millis
    ensures !IsCurrentlyExpire(cal, d, now)
  {
    assert cal.local(now) <= cal.local(d.millis);
  }

  /** A DATE value is judged by its local calendar date alone: two DATE
      values on the same local date are expired together, whatever their
      times of day. */
  lemma DateExpiryIgnoresTimeOfDay(cal: Calendar, d1: DateInstant, d2: DateInstant, now: Long)
    requires d1.dateType == Date && d2.dateType == Date
    requires cal.dateOf(cal.local(d1.millis)) == cal.dateOf(cal.local(d2.millis))
    ensures IsCurrentlyExpire(cal, d1, now) <==> IsCurrentlyExpire(cal, d2, now)
  {
  }

  /** So a DATE value set earlier today is not expired, although its instant
      has passed; a DATE_TIME value at the same instant is, given local time
      strictly increasing with the instant. */
  lemma DateEarlierTodayNotExpired(cal: Calendar, ms: Long, now: Long)
    requires forall a: Long, b: Long :: a < b ==> cal.local(a) < cal.local(b)
    requires ms < now
    requires cal.dateOf(cal.local(ms)) == cal.dateOf(cal.local(now))
    ensures !IsCurrentlyExpire(cal, DateInstant(ms, Date), now)
    ensures IsCurrentlyExpire(cal, DateInstant(ms, DateTime), now)
  {
    DateTimeExpiredIffPast(cal, DateInstant(ms, DateTime), now);
  }

  /** A TIME value is judged by its time of day alone: two TIME values with
      the same local time of day are expired together, whatever their dates. */
  lemma TimeExpiryIgnoresDate(cal: Calendar, d1: DateInstant, d2: DateInstant, now: Long)
    requires d1.dateType == Time && d2.dateType == Time
    requires cal.timeOf(cal.local(d1.millis)) == cal.timeOf(cal.local(d2.millis))
    ensures IsCurrentlyExpire(cal, d1, now) <==> IsCurrentlyExpire(cal, d2, now)
  {
  }
}

=== FILE: decimal.dfy ===
/** Decimal numerals: a number field formatted with a fixed minimum width
    (as `SimpleDateFormat` does for the "MM" and "yyyy" patterns) and Kotlin's
    `String.toInt()` reading it back. */
module Decimal {
  import opened Wrappers

  const MinInt: int := -0x8000_0000
  const MaxInt: int := 0x7FFF_FFFF

  /** Kotlin `Int`: the 32-bit two's-complement range. */
  type Int = x: int | MinInt <= x <= MaxInt

  predicate IsDigit(c: char)
  {
    '0' <= c <= '9'
  }

  predicate AllDigits(s: string)
  {
    forall i :: 0 <= i < |s| ==> IsDigit(s[i])
  }

  function DigitChar(d: nat): (c: char)
    requires d < 10
    ensures IsDigit(c)
  {
    (('0' as int) + d) as char
  }

  /** The shortest decimal numeral of `n`. */
  function Digits(n: nat): (s: string)
    ensures 1 <= |s|
    ensures AllDigits(s)
  {
    if n < 10 then [DigitChar(n)] else Digits(n / 10) + [DigitChar(n % 10)]
  }

  /** A numeric date field: the numeral of `n`, left-padded with '0' up to `width`. */
  function ZeroPadded(n: nat, width: nat): (s: string)
    ensures AllDigits(s)
  {
    var d := Digits(n);
    if |d| >= width then d else seq(width - |d|, _ => '0') + d
  }

  /** The value of a digit string, most significant digit first. */
  function ValueOf(s: string): nat
    requires AllDigits(s)
  {
    if |s| == 0 then 0 else ValueOf(s[..|s| - 1]) * 10 + ((s[|s| - 1] as int) - ('0' as int))
  }

  /** `String.toInt()` on ASCII text: an optional '+' or '-', then one or more
      digits, with the value inside the 32-bit range. None stands for the
      NumberFormatException it throws otherwise. */
  function ToInt(s: string): (r: Option<int>)
    ensures r.Some? ==> MinInt <= r.value <= MaxInt
  {
    if |s| == 0 then None
    else
      var digits := if s[0] == '-' || s[0] == '+' then s[1..] else s;
      if |digits| == 0 || !AllDigits(digits) then None
      else
        var v: int := if s[0] == '-' then 0 - (ValueOf(digits) as int) else ValueOf(digits);
        if MinInt <= v <= MaxInt then Some(v) else None
  }

  lemma {:induction false} ValueOfDigits(n: nat)
    ensures ValueOf(Digits(n)) == n
    decreases n
  {
    if n >= 10 {
      var d := Digits(n);
      assert d[..|d| - 1] == Digits(n / 10);
      ValueOfDigits(n / 10);
    }
  }

  lemma {:induction false} ValueOfZeros(k: nat)
    ensures ValueOf(seq(k, _ => '0')) == 0
    decreases k
  {
    if k > 0 {
      assert seq(k, _ => '0')[..k - 1] == seq(k - 1, _ => '0');
      ValueOfZeros(k - 1);
    }
  }

  /** Leading zeros do not change the value of a numeral. */
  lemma {:induction false} ValueOfLeadingZeros(k: nat, s: string)
    requires AllDigits(s)
    ensures AllDigits(seq(k, _ => '0') + s)
    ensures ValueOf(seq(k, _ => '0') + s) == ValueOf(s)
    decreases |s|
  {
    var z := seq(k, _ => '0');
    if |s| == 0 {
      assert z + s == z;
      ValueOfZeros(k);
    } else {
      assert (z + s)[..|z + s| - 1] == z + s[..|s| - 1];
      ValueOfLeadingZeros(k, s[..|s| - 1]);
    }
  }

  /** Reading a zero-padded field back gives the number that was formatted,
      for every number in the 32-bit range and every width. */
  lemma ToIntZeroPadded(n: nat, width: nat)
    requires n <= MaxInt
    ensures ToInt(ZeroPadded(n, width)) == Some(n)
  {
    var d := Digits(n);
    ValueOfDigits(n);
    var s := ZeroPadded(n, width);
    if |d| < width {
      ValueOfLeadingZeros(width - |d|, d);
    }
    assert IsDigit(s[0]);
  }
}

=== FILE: entry_output_kdb.dfy ===
/** The KeePass 1.x (KDB) entry-record encoder, `EntryOutputKDB.writeEntry`.

    An entry is written as fifteen fields in a fixed order, each a 2-byte
    type code followed by the field's body; most bodies start with a 4-byte
    size. The helpers the encoder calls but that are defined elsewhere
    (`uShortTo2Bytes`, `uIntTo4Bytes`, `uuidTo16Bytes`, `dateTo5Bytes`, and the
    bytes `StringDatabaseKDBUtils.writeStringToBytes` writes) are passed in as
    `Helpers`; all that is assumed of them is their output lengths, and only
    where a lemma says so (`Conforming`).

    Two readings of the same bytes are defined and proved equal: `FieldWrites`
    follows the source's `write` calls one by one, `FieldBody` states each
    field's layout as the format describes it. */
module EntryOutputKDB {
  import opened Wrappers
  import opened Bytes
  import opened Sinks
  import Utf8
  import opened DateInstants

  // The entry, as far as the encoder reads it

  datatype Uuid = Uuid(mostSigBits: Long, leastSigBits: Long)
  datatype Group = Group(id: Int)
  datatype Icon = Icon(iconId: Int)

  /** The key the attachment is decrypted with; the encoder only passes it on. */
  datatype CipherKey = CipherKey(material: seq<byte>)

  /** A decrypted attachment stream: the chunks `readBytes` hands over, in
      order, after which the stream either ends or throws an IOException; and
      whether closing it throws an IOException. After a completed copy it
      makes no difference which of the two `close()` calls throws: an
      exception from the explicit one leaves the `use` block, which closes
      again and suppresses a second one, and one from `use`'s own call escapes
      as it is. After a failed copy `use` suppresses it behind the exception
      already in flight. */
  datatype Stream = Stream(chunks: seq<seq<byte>>, failsAfterChunks: bool, closeFails: bool)

  /** An attachment: its `length()` and its `getInputDataStream(key)`. */
  datatype BinaryData = BinaryData(length: Long, inputDataStream: CipherKey -> Stream)

  datatype Entry = Entry(
    id: Uuid,
    parent: Option<Group>,
    icon: Icon,
    title: string,
    url: string,
    username: string,
    password: string,
    notes: string,
    creationTime: DateInstant,
    lastModificationTime: DateInstant,
    lastAccessTime: DateInstant,
    expiryTime: DateInstant,
    binaryDescription: string,
    binaryData: Option<BinaryData>)

  datatype Helpers = Helpers(
    shortBytes: int -> seq<byte>,         // uShortTo2Bytes
    intBytes: int -> seq<byte>,           // uIntTo4Bytes of an UnsignedInt
    uuidBytes: Uuid -> seq<byte>,         // uuidTo16Bytes
    dateBytes: Long -> Option<seq<byte>>, // dateTo5Bytes; None is a null array
    stringBytes: string -> seq<byte>)     // what writeStringToBytes writes

  /** The output lengths the helpers promise. */
  ghost predicate Conforming(h: Helpers)
  {
    && (forall n :: |h.shortBytes(n)| == 2)
    && (forall n :: |h.intBytes(n)| == 4)
    && (forall u :: |h.uuidBytes(u)| == 16)
    && (forall ms :: h.dateBytes(ms).Some? ==> |h.dateBytes(ms).value| == 5)
  }

  /** `uIntTo4Bytes` tells apart every two values of the unsigned 32-bit
      range. The lengths `Conforming` fixes do not imply this. */
  ghost predicate IntBytesInjective(h: Helpers)
  {
    forall a, b ::
      0 <= a < 0x1_0000_0000 && 0 <= b < 0x1_0000_0000 && h.intBytes(a) == h.intBytes(b) ==> a == b
  }

  // Field types, sizes and order

  datatype Kind =
    | UuidField | GroupIdField | ImageIdField | TitleField | UrlField | UsernameField
    | PasswordField | AdditionalField | CreateField | ModField | AccessField | ExpireField
    | BinaryDescField | BinaryDataField | EndField

  /** Which group-ID type code the encoder writes: the source's 1, or the
      KeePass 1.x layout's 2. Every other code is the same in both. */
  datatype CodeTable = AsWritten | KeePass1

  const UuidFieldType: nat := 1
  const GroupIdFieldType: nat := 1
  const KeePass1GroupIdFieldType: nat := 2
  const ImageIdFieldType: nat := 3
  const TitleFieldType: nat := 4
  const UrlFieldType: nat := 5
  const UsernameFieldType: nat := 6
  const PasswordFieldType: nat := 7
  const AdditionalFieldType: nat := 8
  const CreateFieldType: nat := 9
  const ModFieldType: nat := 10
  const AccessFieldType: nat := 11
  const ExpireFieldType: nat := 12
  const BinaryDescFieldType: nat := 13
  const BinaryDataFieldType: nat := 14
  const EndFieldType: nat := 0xFFFF

  const UuidFieldSize: nat := 16
  const GroupIdFieldSize: nat := 4
  const DateFieldSize: nat := 5
  const ImageIdFieldSize: nat := 4
  const ZeroFieldSize: nat := 0
  const ZeroFive: seq<byte> := [0, 0, 0, 0, 0]

  function TypeCode(table: CodeTable, k: Kind): nat
  {
    match k
    case UuidField => UuidFieldType
    case GroupIdField => if table == AsWritten then GroupIdFieldType else KeePass1GroupIdFieldType
    case ImageIdField => ImageIdFieldType
    case TitleField => TitleFieldType
    case UrlField => UrlFieldType
    case UsernameField => UsernameFieldType
    case PasswordField => PasswordFieldType
    case AdditionalField => AdditionalFieldType
    case CreateField => CreateFieldType
    case ModField => ModFieldType
    case AccessField => AccessFieldType
    case ExpireField => ExpireFieldType
    case BinaryDescField => BinaryDescFieldType
    case BinaryDataField => BinaryDataFieldType
    case EndField => EndFieldType
  }

  const FieldOrder: seq<Kind> := [
    UuidField, GroupIdField, ImageIdField, TitleField, UrlField, UsernameField,
    PasswordField, AdditionalField, CreateField, ModField, AccessField, ExpireField,
    BinaryDescField, BinaryDataField, EndField]

  /** The fields written before the attachment. */
  const HeadFields: seq<Kind> := [
    UuidField, GroupIdField, ImageIdField, TitleField, UrlField, UsernameField,
    PasswordField, AdditionalField, CreateField, ModField, AccessField, ExpireField,
    BinaryDescField]

  lemma FieldOrderSplits()
    ensures FieldOrder == HeadFields + [BinaryDataField] + [EndField]
    ensures BinaryDataField !in HeadFields
  {
  }

  /** The type codes of the record's fields, in the order they are written. */
  function Codes(table: CodeTable): seq<nat>
  {
    seq(|FieldOrder|, i requires 0 <= i < |FieldOrder| => TypeCode(table, FieldOrder[i]))
  }

  /** The codes as the source writes them: the group ID repeats the UUID's 1. */
  lemma TypeCodesAsWritten()
    ensures Codes(AsWritten) == [1, 1, 3, 4, 5, 6, 7, 8, 9, 10, 11, 12, 13, 14, 0xFFFF]
    ensures Codes(KeePass1) == [1, 2, 3, 4, 5, 6, 7, 8, 9, 10, 11, 12, 13, 14, 0xFFFF]
  {
  }

  /** As written, the UUID and group-ID fields share code 1, and that is the
      only pair of fields that share a code. */
  lemma AsWrittenGroupIdReusesUuidCode(k1: Kind, k2: Kind)
    ensures TypeCode(AsWritten, UuidField) == TypeCode(AsWritten, GroupIdField) == 1
    ensures k1 != k2 && TypeCode(AsWritten, k1) == TypeCode(AsWritten, k2) ==>
      {k1, k2} == {UuidField, GroupIdField}
  {
  }

  /** With the KeePass 1.x code for the group ID, every field type has its own
      code, so a reader can tell the fields apart by code alone. */
  lemma KeePass1TypeCodesDistinct(k1: Kind, k2: Kind)
    ensures TypeCode(KeePass1, k1) == TypeCode(KeePass1, k2) ==> k1 == k2
  {
  }

  // The helpers `writeDate` and `writePassword`

  /** `writeDate`: the type, the size 5, then the packed date, or five zero
      bytes when there is none. With helpers of the promised lengths the
      field is always 11 bytes, so a missing date becomes five zero bytes
      rather than a missing field. */
  function WriteDate(h: Helpers, fieldType: nat, date: Option<seq<byte>>): (r: seq<seq<byte>>)
    ensures Conforming(h) && (date.Some? ==> |date.value| == 5) ==>
      var b := Flatten(r);
      && |b| == 11
      && b[..2] == h.shortBytes(fieldType)
      && b[2..6] == h.intBytes(DateFieldSize)
      && (date.None? ==> forall i :: 6 <= i < 11 ==> b[i] == 0)
      && (date.Some? ==> b[6..] == date.value)
  {
    var payload := if date.Some? then date.value else ZeroFive;
    var w := [h.shortBytes(fieldType), h.intBytes(DateFieldSize), payload];
    FlattenThree(w[0], w[1], w[2]);
    w
  }

  /** What `writePassword` writes, and the length it returns. */
  datatype PasswordWrite = PasswordWrite(writes: seq<seq<byte>>, length: int)

  /** `writePassword`: the size, the UTF-8 bytes, one NUL; returns the size.
      The size counts exactly the bytes after it, and a reader that takes the
      bytes up to the NUL and decodes them as UTF-8 gets the password back,
      provided the password has no U+0000 of its own. */
  function WritePassword(h: Helpers, str: string): (r: PasswordWrite)
    ensures r.length == |Utf8.Encode(str)| + 1
    ensures Conforming(h) ==>
      && |Flatten(r.writes)| == 4 + r.length
      && Flatten(r.writes)[..4] == h.intBytes(r.length)
    ensures Conforming(h) && Utf8.Nul !in str ==>
      && UntilNul(Flatten(r.writes)[4..]) == Some(Utf8.Encode(str))
      && Utf8.Decode(UntilNul(Flatten(r.writes)[4..]).value) == Some(str)
  {
    var initial := Utf8.Encode(str);
    var length := |initial| + 1;
    var writes := [h.intBytes(length), initial, [0]];
    FlattenThree(writes[0], writes[1], writes[2]);
    assert Flatten(writes)[|writes[0]|..] == initial + [0] + [];
    if Utf8.Nul in str then PasswordWrite(writes, length)
    else
      Utf8.EncodeHasNoNul(str);
      UntilNulTerminated(initial, []);
      Utf8.DecodeEncode(str);
      PasswordWrite(writes, length)
  }

  /** The bytes of `b` before its first zero byte; None when it has none. */
  function UntilNul(b: seq<byte>): (r: Option<seq<byte>>)
    ensures r.Some? ==> r.value <= b && |r.value| < |b| && b[|r.value|] == 0 && 0 !in r.value
    ensures r.None? ==> 0 !in b
  {
    if |b| == 0 then None
    else if b[0] == 0 then Some([])
    else match UntilNul(b[1..])
      case None => None
      case Some(rest) => Some([b[0]] + rest)
  }

  lemma {:induction false} UntilNulTerminated(x: seq<byte>, y: seq<byte>)
    requires 0 !in x
    ensures UntilNul(x + [0] + y) == Some(x)
    decreases |x|
  {
    if |x| > 0 {
      assert (x + [0] + y)[1..] == x[1..] + [0] + y;
      UntilNulTerminated(x[1..], y);
      assert [x[0]] + x[1..] == x;
    }
  }

  /** The password "hunter2" is written with size 8: its seven ASCII bytes
      and a NUL. */
  lemma PasswordHunter2(h: Helpers)
    requires Conforming(h)
    ensures WritePassword(h, "hunter2").length == 8
    ensures Flatten(WritePassword(h, "hunter2").writes)[4..] == [104, 117, 110, 116, 101, 114, 50, 0]
  {
    var enc: seq<byte> := [104, 117, 110, 116, 101, 114, 50];
    Hunter2Encoding();
    var w := WritePassword(h, "hunter2");
    assert w.writes == [h.intBytes(8), enc, [0]];
    FlattenThree(h.intBytes(8), enc, [0]);
    assert |h.intBytes(8)| == 4;
  }

  lemma Hunter2Encoding()
    ensures Utf8.Encode("hunter2") == [104, 117, 110, 116, 101, 114, 50]
  {
    Utf8.EncodeAscii("hunter2");
  }

  // The attachment

  /** `binaryData?.length() ?: 0`. */
  function AttachmentLength(e: Entry): (r: int)
    ensures e.binaryData.None? ==> r == 0
    ensures r > 0 ==> e.binaryData.Some? && e.binaryData.value.length == r
  {
    match e.binaryData
    case None => 0
    case Some(b) => b.length
  }

  function OpenStream(e: Entry, key: CipherKey): Stream
    requires AttachmentLength(e) > 0
  {
    e.binaryData.value.inputDataStream(key)
  }

  /** The attachment bytes copied into the record: everything the stream
      delivers when the declared length is positive, nothing otherwise. The
      count is not checked against the declared length. */
  function AttachmentContent(e: Entry, key: CipherKey): seq<byte>
  {
    if AttachmentLength(e) > 0 then Flatten(OpenStream(e, key).chunks) else []
  }

  // The record as the format describes it

  function DatePayload(h: Helpers, d: DateInstant): seq<byte>
  {
    match h.dateBytes(d.millis)
    case Some(b) => b
    case None => ZeroFive
  }

  /** A field's bytes after its type code. */
  function FieldBody(h: Helpers, e: Entry, key: CipherKey, k: Kind): seq<byte>
    requires e.parent.Some?
  {
    match k
    case UuidField => h.intBytes(UuidFieldSize) + h.uuidBytes(e.id)
    case GroupIdField => h.intBytes(GroupIdFieldSize) + h.intBytes(e.parent.value.id)
    case ImageIdField => h.intBytes(ImageIdFieldSize) + h.intBytes(e.icon.iconId)
    case TitleField => h.stringBytes(e.title)
    case UrlField => h.stringBytes(e.url)
    case UsernameField => h.stringBytes(e.username)
    case PasswordField =>
      var utf8 := Utf8.Encode(e.password);
      h.intBytes(|utf8| + 1) + utf8 + [0]
    case AdditionalField => h.stringBytes(e.notes)
    case CreateField => h.intBytes(DateFieldSize) + DatePayload(h, e.creationTime)
    case ModField => h.intBytes(DateFieldSize) + DatePayload(h, e.lastModificationTime)
    case AccessField => h.intBytes(DateFieldSize) + DatePayload(h, e.lastAccessTime)
    case ExpireField => h.intBytes(DateFieldSize) + DatePayload(h, e.expiryTime)
    case BinaryDescField => h.stringBytes(e.binaryDescription)
    case BinaryDataField => h.intBytes(AttachmentLength(e)) + AttachmentContent(e, key)
    case EndField => h.intBytes(ZeroFieldSize)
  }

  function FieldBytes(table: CodeTable, h: Helpers, e: Entry, key: CipherKey, k: Kind): seq<byte>
    requires e.parent.Some?
  {
    h.shortBytes(TypeCode(table, k)) + FieldBody(h, e, key, k)
  }

  function Serialize(table: CodeTable, h: Helpers, e: Entry, key: CipherKey, kinds: seq<Kind>): seq<byte>
    requires e.parent.Some?
  {
    if |kinds| == 0 then []
    else FieldBytes(table, h, e, key, kinds[0]) + Serialize(table, h, e, key, kinds[1..])
  }

  /** The whole record: every field of `FieldOrder`, in that order. */
  function Record(table: CodeTable, h: Helpers, e: Entry, key: CipherKey): seq<byte>
    requires e.parent.Some?
  {
    Serialize(table, h, e, key, FieldOrder)
  }

  lemma SerializeSingle(table: CodeTable, h: Helpers, e: Entry, key: CipherKey, k: Kind)
    requires e.parent.Some?
    ensures Serialize(table, h, e, key, [k]) == FieldBytes(table, h, e, key, k)
  {
    assert [k][1..] == [];
  }

  lemma {:induction false} SerializeConcat(
    table: CodeTable, h: Helpers, e: Entry, key: CipherKey, a: seq<Kind>, b: seq<Kind>)
    requires e.parent.Some?
    ensures Serialize(table, h, e, key, a + b)
      == Serialize(table, h, e, key, a) + Serialize(table, h, e, key, b)
    decreases |a|
  {
    if |a| == 0 {
      assert a + b == b;
    } else {
      assert (a + b)[1..] == a[1..] + b;
      SerializeConcat(table, h, e, key, a[1..], b);
    }
  }

  // The record as the source writes it

  /** The `write` calls for one field, as `writeEntry` makes them. For the
      attachment these are the type and the declared length; the data that
      follows is copied from the stream. */
  function FieldWrites(table: CodeTable, h: Helpers, e: Entry, k: Kind): seq<seq<byte>>
    requires e.parent.Some?
  {
    var code := h.shortBytes(TypeCode(table, k));
    match k
    case UuidField => [code, h.intBytes(UuidFieldSize), h.uuidBytes(e.id)]
    case GroupIdField => [code, h.intBytes(GroupIdFieldSize), h.intBytes(e.parent.value.id)]
    case ImageIdField => [code, h.intBytes(ImageIdFieldSize), h.intBytes(e.icon.iconId)]
    case TitleField => [code, h.stringBytes(e.title)]
    case UrlField => [code, h.stringBytes(e.url)]
    case UsernameField => [code, h.stringBytes(e.username)]
    case PasswordField => [code] + WritePassword(h, e.password).writes
    case AdditionalField => [code, h.stringBytes(e.notes)]
    case CreateField => WriteDate(h, TypeCode(table, k), h.dateBytes(e.creationTime.millis))
    case ModField => WriteDate(h, TypeCode(table, k), h.dateBytes(e.lastModificationTime.millis))
    case AccessField => WriteDate(h, TypeCode(table, k), h.dateBytes(e.lastAccessTime.millis))
    case ExpireField => WriteDate(h, TypeCode(table, k), h.dateBytes(e.expiryTime.millis))
    case BinaryDescField => [code, h.stringBytes(e.binaryDescription)]
    case BinaryDataField => [code, h.intBytes(AttachmentLength(e))]
    case EndField => [code, h.intBytes(ZeroFieldSize)]
  }

  function WritesOf(table: CodeTable, h: Helpers, e: Entry, kinds: seq<Kind>): seq<seq<byte>>
    requires e.parent.Some?
  {
    if |kinds| == 0 then [] else FieldWrites(table, h, e, kinds[0]) + WritesOf(table, h, e, kinds[1..])
  }

  /** Everything written before the attachment data: the first thirteen
      fields, then the attachment's type and declared length. */
  function HeadWrites(table: CodeTable, h: Helpers, e: Entry): seq<seq<byte>>
    requires e.parent.Some?
  {
    WritesOf(table, h, e, HeadFields) + FieldWrites(table, h, e, BinaryDataField)
  }

  function EndWrites(table: CodeTable, h: Helpers, e: Entry): seq<seq<byte>>
    requires e.parent.Some?
  {
    FieldWrites(table, h, e, EndField)
  }

  lemma FlattenTwo(a: seq<byte>, b: seq<byte>)
    ensures Flatten([a, b]) == a + b
  {
    assert [a, b][1..] == [b];
    assert [b][1..] == [];
    assert Flatten([b]) == b + Flatten([]);
    assert b + [] == b;
  }

  lemma FlattenThree(a: seq<byte>, b: seq<byte>, c: seq<byte>)
    ensures Flatten([a, b, c]) == a + b + c
  {
    assert [a, b, c][1..] == [b, c];
    FlattenTwo(b, c);
  }

  lemma FlattenFour(a: seq<byte>, b: seq<byte>, c: seq<byte>, d: seq<byte>)
    ensures Flatten([a, b, c, d]) == a + b + c + d
  {
    assert [a, b, c, d][1..] == [b, c, d];
    FlattenThree(b, c, d);
  }

  lemma FixedFieldWritesMatchLayout(table: CodeTable, h: Helpers, e: Entry, key: CipherKey, k: Kind)
    requires e.parent.Some?
    requires k.UuidField? || k.GroupIdField? || k.ImageIdField? || k.PasswordField? || k.EndField?
    ensures Flatten(FieldWrites(table, h, e, k)) == FieldBytes(table, h, e, key, k)
  {
    var w := FieldWrites(table, h, e, k);
    match k
    case UuidField => FlattenThree(w[0], w[1], w[2]);
    case GroupIdField => FlattenThree(w[0], w[1], w[2]);
    case ImageIdField => FlattenThree(w[0], w[1], w[2]);
    case PasswordField => FlattenFour(w[0], w[1], w[2], w[3]);
    case EndField => FlattenTwo(w[0], w[1]);
  }

  lemma StringFieldWritesMatchLayout(table: CodeTable, h: Helpers, e: Entry, key: CipherKey, k: Kind)
    requires e.parent.Some?
    requires k.TitleField? || k.UrlField? || k.UsernameField? || k.AdditionalField? || k.BinaryDescField?
    ensures Flatten(FieldWrites(table, h, e, k)) == FieldBytes(table, h, e, key, k)
  {
    var w := FieldWrites(table, h, e, k);
    FlattenTwo(w[0], w[1]);
  }

  lemma DateFieldWritesMatchLayout(table: CodeTable, h: Helpers, e: Entry, key: CipherKey, k: Kind)
    requires e.parent.Some?
    requires k.CreateField? || k.ModField? || k.AccessField? || k.ExpireField?
    ensures Flatten(FieldWrites(table, h, e, k)) == FieldBytes(table, h, e, key, k)
  {
    var w := FieldWrites(table, h, e, k);
    FlattenThree(w[0], w[1], w[2]);
  }

  /** The source's write calls for a field produce the field's bytes as the
      format describes them (for the attachment, once the streamed data is
      appended). */
  lemma FieldWritesMatchLayout(table: CodeTable, h: Helpers, e: Entry, key: CipherKey, k: Kind)
    requires e.parent.Some?
    ensures var data := if k == BinaryDataField then AttachmentContent(e, key) else [];
      Flatten(FieldWrites(table, h, e, k)) + data == FieldBytes(table, h, e, key, k)
  {
    if k == BinaryDataField {
      var w := FieldWrites(table, h, e, k);
      FlattenTwo(w[0], w[1]);
    } else if k.TitleField? || k.UrlField? || k.UsernameField? || k.AdditionalField? || k.BinaryDescField? {
      StringFieldWritesMatchLayout(table, h, e, key, k);
    } else if k.CreateField? || k.ModField? || k.AccessField? || k.ExpireField? {
      DateFieldWritesMatchLayout(table, h, e, key, k);
    } else {
      FixedFieldWritesMatchLayout(table, h, e, key, k);
    }
  }

  lemma {:induction false} WritesOfMatchLayout(
    table: CodeTable, h: Helpers, e: Entry, key: CipherKey, kinds: seq<Kind>)
    requires e.parent.Some?
    requires BinaryDataField !in kinds
    ensures Flatten(WritesOf(table, h, e, kinds)) == Serialize(table, h, e, key, kinds)
    decreases |kinds|
  {
    if |kinds| > 0 {
      var k, tail := kinds[0], kinds[1..];
      assert kinds == [k] + tail;
      var fw := FieldWrites(table, h, e, k);
      var rest := WritesOf(table, h, e, tail);
      FlattenConcat(fw, rest);
      FieldWritesMatchLayout(table, h, e, key, k);
      WritesOfMatchLayout(table, h, e, key, tail);
    }
  }

  function HeadBytes(table: CodeTable, h: Helpers, e: Entry): seq<byte>
    requires e.parent.Some?
  {
    Flatten(HeadWrites(table, h, e))
  }

  function EndBytes(table: CodeTable, h: Helpers, e: Entry): seq<byte>
    requires e.parent.Some?
  {
    Flatten(EndWrites(table, h, e))
  }

  /** The record is the head fields, the attachment field and the end marker. */
  lemma RecordSplits(table: CodeTable, h: Helpers, e: Entry, key: CipherKey)
    requires e.parent.Some?
    ensures Record(table, h, e, key)
      == Serialize(table, h, e, key, HeadFields) + FieldBytes(table, h, e, key, BinaryDataField)
         + FieldBytes(table, h, e, key, EndField)
  {
    FieldOrderSplits();
    SerializeConcat(table, h, e, key, HeadFields + [BinaryDataField], [EndField]);
    SerializeConcat(table, h, e, key, HeadFields, [BinaryDataField]);
    SerializeSingle(table, h, e, key, BinaryDataField);
    SerializeSingle(table, h, e, key, EndField);
  }

  /** The writes before the data, with the data appended, are the head
      fields and the attachment field as laid out. */
  lemma HeadBytesMatchLayout(table: CodeTable, h: Helpers, e: Entry, key: CipherKey)
    requires e.parent.Some?
    ensures HeadBytes(table, h, e) + AttachmentContent(e, key)
      == Serialize(table, h, e, key, HeadFields) + FieldBytes(table, h, e, key, BinaryDataField)
  {
    FieldOrderSplits();
    WritesOfMatchLayout(table, h, e, key, HeadFields);
    FlattenConcat(WritesOf(table, h, e, HeadFields), FieldWrites(table, h, e, BinaryDataField));
    FieldWritesMatchLayout(table, h, e, key, BinaryDataField);
  }

  /** The source's writes, with the streamed attachment data in its place,
      are exactly the record the format describes. */
  lemma RecordIsHeadDataEnd(table: CodeTable, h: Helpers, e: Entry, key: CipherKey)
    requires e.parent.Some?
    ensures Record(table, h, e, key)
      == HeadBytes(table, h, e) + AttachmentContent(e, key) + EndBytes(table, h, e)
  {
    RecordSplits(table, h, e, key);
    HeadBytesMatchLayout(table, h, e, key);
    FieldWritesMatchLayout(table, h, e, key, EndField);
  }

  // Sizes

  /** The size a fixed-size field declares: 16 for the UUID, 4 for the group
      and image IDs, 5 for each date, 0 for the end marker. */
  function DeclaredSize(k: Kind): Option<nat>
  {
    match k
    case UuidField => Some(UuidFieldSize)
    case GroupIdField => Some(GroupIdFieldSize)
    case ImageIdField => Some(ImageIdFieldSize)
    case CreateField => Some(DateFieldSize)
    case ModField => Some(DateFieldSize)
    case AccessField => Some(DateFieldSize)
    case ExpireField => Some(DateFieldSize)
    case EndField => Some(ZeroFieldSize)
    case _ => None
  }

  /** A body whose leading 4 bytes are the size of the rest of it. */
  predicate DeclaresOwnSize(h: Helpers, body: seq<byte>)
  {
    |body| >= 4 && body[..4] == h.intBytes(|body| - 4)
  }

  /** Every fixed-size field declares its size, and its payload has exactly
      that many bytes; a date without packed bytes is five zero bytes. The
      password field declares its own size too. */
  lemma FixedFieldsMatchDeclaredSize(h: Helpers, e: Entry, key: CipherKey, k: Kind)
    requires Conforming(h)
    requires e.parent.Some?
    ensures DeclaredSize(k).Some? ==>
      && |FieldBody(h, e, key, k)| == 4 + DeclaredSize(k).value
      && FieldBody(h, e, key, k)[..4] == h.intBytes(DeclaredSize(k).value)
    ensures DeclaredSize(k).Some? || k == PasswordField ==> DeclaresOwnSize(h, FieldBody(h, e, key, k))
    ensures k == ExpireField && h.dateBytes(e.expiryTime.millis).None? ==>
      FieldBody(h, e, key, k)[4..] == ZeroFive
    ensures k == CreateField && h.dateBytes(e.creationTime.millis).None? ==>
      FieldBody(h, e, key, k)[4..] == ZeroFive
    ensures k == ModField && h.dateBytes(e.lastModificationTime.millis).None? ==>
      FieldBody(h, e, key, k)[4..] == ZeroFive
    ensures k == AccessField && h.dateBytes(e.lastAccessTime.millis).None? ==>
      FieldBody(h, e, key, k)[4..] == ZeroFive
  {
    var b := FieldBody(h, e, key, k);
    match k
    case UuidField => assert |h.uuidBytes(e.id)| == 16;
    case GroupIdField => assert |h.intBytes(e.parent.value.id)| == 4;
    case ImageIdField => assert |h.intBytes(e.icon.iconId)| == 4;
    case PasswordField =>
      var utf8 := Utf8.Encode(e.password);
      assert |h.intBytes(|utf8| + 1)| == 4;
    case CreateField => assert |DatePayload(h, e.creationTime)| == 5;
    case ModField => assert |DatePayload(h, e.lastModificationTime)| == 5;
    case AccessField => assert |DatePayload(h, e.lastAccessTime)| == 5;
    case ExpireField => assert |DatePayload(h, e.expiryTime)| == 5;
    case EndField => assert b == h.intBytes(0) && |b| == 4;
    case _ =>
  }

  /** The attachment field carries the declared length, then whatever the
      stream delivered: no data at all when the declared length is 0 (or
      there is no attachment), and no check that the two counts agree. The
      field declares its own size when they agree; with `uIntTo4Bytes`
      injective and both counts in its unsigned range, only then. */
  lemma AttachmentFieldTrustsDeclaredLength(h: Helpers, e: Entry, key: CipherKey)
    requires Conforming(h)
    requires e.parent.Some?
    ensures FieldBody(h, e, key, BinaryDataField)[..4] == h.intBytes(AttachmentLength(e))
    ensures FieldBody(h, e, key, BinaryDataField)[4..] == AttachmentContent(e, key)
    ensures AttachmentLength(e) <= 0 ==> |FieldBody(h, e, key, BinaryDataField)| == 4
    ensures e.binaryData.None? ==> FieldBody(h, e, key, BinaryDataField) == h.intBytes(0)
    ensures AttachmentLength(e) > 0 ==> AttachmentContent(e, key) == Flatten(OpenStream(e, key).chunks)
    ensures AttachmentLength(e) == |AttachmentContent(e, key)| ==>
      DeclaresOwnSize(h, FieldBody(h, e, key, BinaryDataField))
    ensures && IntBytesInjective(h)
            && 0 <= AttachmentLength(e) < 0x1_0000_0000
            && |AttachmentContent(e, key)| < 0x1_0000_0000
            && DeclaresOwnSize(h, FieldBody(h, e, key, BinaryDataField))
            ==> AttachmentLength(e) == |AttachmentContent(e, key)|
  {
    var body := FieldBody(h, e, key, BinaryDataField);
    assert |h.intBytes(AttachmentLength(e))| == 4;
    assert body == h.intBytes(AttachmentLength(e)) + AttachmentContent(e, key);
    if e.binaryData.None? {
      assert AttachmentContent(e, key) == [];
      assert FieldBody(h, e, key, BinaryDataField) == h.intBytes(0) + [];
    }
  }

  /** An attachment declared as 3 bytes whose stream yields one byte is
      written with size 3 and a single data byte: nothing reconciles them. */
  lemma DeclaredLengthNotReconciled(h: Helpers, e: Entry, key: CipherKey)
    requires Conforming(h)
    requires e.parent.Some?
    requires e.binaryData == Some(BinaryData(3, _ => Stream([[7]], false, false)))
    ensures FieldBody(h, e, key, BinaryDataField) == h.intBytes(3) + [7]
  {
    assert Flatten([[7]]) == [7] + Flatten([]);
  }

  // The whole record

  /** The record starts with the UUID field (22 bytes) and the group-ID
      field (10 bytes). As written, both begin with the same type bytes. */
  lemma RecordStartsWithUuidThenGroupId(table: CodeTable, h: Helpers, e: Entry, key: CipherKey)
    requires Conforming(h)
    requires e.parent.Some?
    ensures |Record(table, h, e, key)| >= 32
    ensures Record(table, h, e, key)[..22] == FieldBytes(table, h, e, key, UuidField)
    ensures Record(table, h, e, key)[22..32] == FieldBytes(table, h, e, key, GroupIdField)
    ensures Record(table, h, e, key)[22..24] == h.shortBytes(TypeCode(table, GroupIdField))
    ensures table == AsWritten ==> Record(table, h, e, key)[..2] == Record(table, h, e, key)[22..24]
  {
    var u := FieldBytes(table, h, e, key, UuidField);
    var g := FieldBytes(table, h, e, key, GroupIdField);
    var rest := Serialize(table, h, e, key, FieldOrder[2..]);
    assert FieldOrder[0] == UuidField && FieldOrder[1..][0] == GroupIdField;
    assert FieldOrder[1..][1..] == FieldOrder[2..];
    assert Serialize(table, h, e, key, FieldOrder[1..]) == g + rest;
    assert Record(table, h, e, key) == u + (g + rest);
    assert |h.shortBytes(TypeCode(table, UuidField))| == 2 && |h.uuidBytes(e.id)| == 16;
    assert |h.shortBytes(TypeCode(table, GroupIdField))| == 2 && |h.intBytes(e.parent.value.id)| == 4;
    assert |u| == 22 && |g| == 10;
    assert (u + (g + rest))[22..32] == g;
  }

  /** The record always closes with type 0xFFFF and a zero size. */
  lemma RecordEndsWithTerminator(table: CodeTable, h: Helpers, e: Entry, key: CipherKey)
    requires Conforming(h)
    requires e.parent.Some?
    ensures |Record(table, h, e, key)| >= 6
    ensures Record(table, h, e, key)[|Record(table, h, e, key)| - 6..]
      == h.shortBytes(EndFieldType) + h.intBytes(ZeroFieldSize)
  {
    RecordIsHeadDataEnd(table, h, e, key);
    var w := EndWrites(table, h, e);
    FlattenTwo(w[0], w[1]);
    assert |EndBytes(table, h, e)| == 6;
  }

  /** A field's length, type code included, as the format's size table gives
      it: fixed for the UUID, IDs, dates and end marker, otherwise the string
      as written, the password's UTF-8 bytes and NUL, or the attachment data. */
  function FieldLength(h: Helpers, e: Entry, key: CipherKey, k: Kind): nat
  {
    match k
    case TitleField => 2 + |h.stringBytes(e.title)|
    case UrlField => 2 + |h.stringBytes(e.url)|
    case UsernameField => 2 + |h.stringBytes(e.username)|
    case PasswordField => 2 + 4 + |Utf8.Encode(e.password)| + 1
    case AdditionalField => 2 + |h.stringBytes(e.notes)|
    case BinaryDescField => 2 + |h.stringBytes(e.binaryDescription)|
    case BinaryDataField => 2 + 4 + |AttachmentContent(e, key)|
    case _ => 2 + 4 + DeclaredSize(k).value
  }

  lemma FieldBytesLength(table: CodeTable, h: Helpers, e: Entry, key: CipherKey, k: Kind)
    requires Conforming(h)
    requires e.parent.Some?
    ensures |FieldBytes(table, h, e, key, k)| == FieldLength(h, e, key, k)
  {
    FixedFieldsMatchDeclaredSize(h, e, key, k);
    assert |h.shortBytes(TypeCode(table, k))| == 2;
    if k == BinaryDataField {
      AttachmentFieldTrustsDeclaredLength(h, e, key);
    }
  }

  /** The summed lengths of the fields `kinds[from..]`. */
  function LayoutLength(h: Helpers, e: Entry, key: CipherKey, kinds: seq<Kind>, from: nat): nat
    decreases |kinds| - from
  {
    if from >= |kinds| then 0
    else FieldLength(h, e, key, kinds[from]) + LayoutLength(h, e, key, kinds, from + 1)
  }

  lemma {:induction false} SerializeLength(
    table: CodeTable, h: Helpers, e: Entry, key: CipherKey, kinds: seq<Kind>, from: nat)
    requires Conforming(h)
    requires e.parent.Some?
    requires from <= |kinds|
    ensures |Serialize(table, h, e, key, kinds[from..])| == LayoutLength(h, e, key, kinds, from)
    decreases |kinds| - from
  {
    if from < |kinds| {
      assert kinds[from..][1..] == kinds[from + 1..];
      FieldBytesLength(table, h, e, key, kinds[from]);
      SerializeLength(table, h, e, key, kinds, from + 1);
    }
  }

  lemma LayoutLengthTail(h: Helpers, e: Entry, key: CipherKey)
    ensures LayoutLength(h, e, key, FieldOrder, 10)
      == 11 + 11 + (2 + |h.stringBytes(e.binaryDescription)|) + (6 + |AttachmentContent(e, key)|) + 6
  {
    assert FieldOrder[14] == EndField;
    assert LayoutLength(h, e, key, FieldOrder, 14)
      == FieldLength(h, e, key, EndField) + LayoutLength(h, e, key, FieldOrder, 15);
    assert FieldOrder[13] == BinaryDataField;
    assert LayoutLength(h, e, key, FieldOrder, 13)
      == FieldLength(h, e, key, BinaryDataField) + LayoutLength(h, e, key, FieldOrder, 14);
    assert FieldOrder[12] == BinaryDescField;
    assert LayoutLength(h, e, key, FieldOrder, 12)
      == FieldLength(h, e, key, BinaryDescField) + LayoutLength(h, e, key, FieldOrder, 13);
    assert FieldOrder[11] == ExpireField;
    assert LayoutLength(h, e, key, FieldOrder, 11)
      == FieldLength(h, e, key, ExpireField) + LayoutLength(h, e, key, FieldOrder, 12);
    assert FieldOrder[10] == AccessField;
    assert LayoutLength(h, e, key, FieldOrder, 10)
      == FieldLength(h, e, key, AccessField) + LayoutLength(h, e, key, FieldOrder, 11);
  }

  lemma LayoutLengthMiddle(h: Helpers, e: Entry, key: CipherKey)
    ensures LayoutLength(h, e, key, FieldOrder, 5)
      == (2 + |h.stringBytes(e.username)|) + (7 + |Utf8.Encode(e.password)|) + (2 + |h.stringBytes(e.notes)|)
         + 11 + 11 + LayoutLength(h, e, key, FieldOrder, 10)
  {
    assert FieldOrder[9] == ModField;
    assert LayoutLength(h, e, key, FieldOrder, 9)
      == FieldLength(h, e, key, ModField) + LayoutLength(h, e, key, FieldOrder, 10);
    assert FieldOrder[8] == CreateField;
    assert LayoutLength(h, e, key, FieldOrder, 8)
      == FieldLength(h, e, key, CreateField) + LayoutLength(h, e, key, FieldOrder, 9);
    assert FieldOrder[7] == AdditionalField;
    assert LayoutLength(h, e, key, FieldOrder, 7)
      == FieldLength(h, e, key, AdditionalField) + LayoutLength(h, e, key, FieldOrder, 8);
    assert FieldOrder[6] == PasswordField;
    assert LayoutLength(h, e, key, FieldOrder, 6)
      == FieldLength(h, e, key, PasswordField) + LayoutLength(h, e, key, FieldOrder, 7);
    assert FieldOrder[5] == UsernameField;
    assert LayoutLength(h, e, key, FieldOrder, 5)
      == FieldLength(h, e, key, UsernameField) + LayoutLength(h, e, key, FieldOrder, 6);
  }

  lemma LayoutLengthHead(h: Helpers, e: Entry, key: CipherKey)
    ensures LayoutLength(h, e, key, FieldOrder, 0)
      == 22 + 10 + 10 + (2 + |h.stringBytes(e.title)|) + (2 + |h.stringBytes(e.url)|)
         + LayoutLength(h, e, key, FieldOrder, 5)
  {
    assert FieldOrder[4] == UrlField;
    assert LayoutLength(h, e, key, FieldOrder, 4)
      == FieldLength(h, e, key, UrlField) + LayoutLength(h, e, key, FieldOrder, 5);
    assert FieldOrder[3] == TitleField;
    assert LayoutLength(h, e, key, FieldOrder, 3)
      == FieldLength(h, e, key, TitleField) + LayoutLength(h, e, key, FieldOrder, 4);
    assert FieldOrder[2] == ImageIdField;
    assert LayoutLength(h, e, key, FieldOrder, 2)
      == FieldLength(h, e, key, ImageIdField) + LayoutLength(h, e, key, FieldOrder, 3);
    assert FieldOrder[1] == GroupIdField;
    assert LayoutLength(h, e, key, FieldOrder, 1)
      == FieldLength(h, e, key, GroupIdField) + LayoutLength(h, e, key, FieldOrder, 2);
    assert FieldOrder[0] == UuidField;
    assert LayoutLength(h, e, key, FieldOrder, 0)
      == FieldLength(h, e, key, UuidField) + LayoutLength(h, e, key, FieldOrder, 1);
  }

  /** The record's length: 115 bytes of type codes, sizes, fixed payloads and
      NUL, plus the five strings as written, the password's UTF-8 bytes and
      the attachment data. */
  lemma RecordLength(table: CodeTable, h: Helpers, e: Entry, key: CipherKey)
    requires Conforming(h)
    requires e.parent.Some?
    ensures |Record(table, h, e, key)| == 115
      + |h.stringBytes(e.title)| + |h.stringBytes(e.url)| + |h.stringBytes(e.username)|
      + |Utf8.Encode(e.password)| + |h.stringBytes(e.notes)| + |h.stringBytes(e.binaryDescription)|
      + |AttachmentContent(e, key)|
  {
    SerializeLength(table, h, e, key, FieldOrder, 0);
    assert FieldOrder[0..] == FieldOrder;
    LayoutLengthHead(h, e, key);
    LayoutLengthMiddle(h, e, key);
    LayoutLengthTail(h, e, key);
  }

  // Writing to a sink

  /** The exception `writeEntry` throws: a DatabaseOutputException wrapping
      the IOException that caused it. */
  datatype IoCause = SinkWriteFailed | StreamReadFailed | StreamCloseFailed
  datatype DatabaseOutputException = DatabaseOutputException(cause: IoCause)

  /** The sink afterwards, whether `writeEntry` returned or threw, and how
      many times the attachment stream's `close()` was called. */
  datatype WriteResult = WriteResult(sink: Sink, outcome: Outcome<DatabaseOutputException>, streamCloses: nat)

  predicate StreamFails(e: Entry, key: CipherKey)
  {
    AttachmentLength(e) > 0 && OpenStream(e, key).failsAfterChunks
  }

  predicate CloseFails(e: Entry, key: CipherKey)
  {
    AttachmentLength(e) > 0 && OpenStream(e, key).closeFails
  }

  /** The stream is opened when the declared length is positive and
      everything before the data reached the sink. */
  predicate StreamOpened(table: CodeTable, h: Helpers, e: Entry, sink: Sink)
    requires e.parent.Some?
  {
    AttachmentLength(e) > 0 && Fits(sink, |HeadBytes(table, h, e)|)
  }

  /** What the `use` block leaves: the sink, the IOException that left the
      block if any, and how many times `close()` was called. */
  datatype CopyResult = CopyResult(sink: Sink, failure: Option<IoCause>, closes: nat)

  /** The `use` block around the copy loop. The sink receives the data up to
      its room. The exception that leaves the block is the sink's, else the
      stream's read failure, else its close failure, and none exactly when
      all three succeed; the stream is closed twice when the reads complete
      and once when an exception cuts them short. */
  method CopyAttachment(s: Sink, stream: Stream) returns (r: CopyResult)
    ensures r.sink == Put(s, Flatten(stream.chunks)).sink
    ensures r.failure.None? <==>
      Fits(s, |Flatten(stream.chunks)|) && !stream.failsAfterChunks && !stream.closeFails
    ensures r.failure == Some(SinkWriteFailed) <==> !Fits(s, |Flatten(stream.chunks)|)
    ensures r.failure == Some(StreamReadFailed) <==>
      Fits(s, |Flatten(stream.chunks)|) && stream.failsAfterChunks
    ensures r.closes == if Fits(s, |Flatten(stream.chunks)|) && !stream.failsAfterChunks then 2 else 1
  {
    var copy := WriteAll(s, stream.chunks);
    if !copy.ok {
      // the exception leaves the `use` block, which closes the stream
      return CopyResult(copy.sink, Some(SinkWriteFailed), 1);
    }
    if stream.failsAfterChunks {
      return CopyResult(copy.sink, Some(StreamReadFailed), 1);
    }
    // the explicit `close()`, then the one `use` makes on leaving
    var failure := if stream.closeFails then Some(StreamCloseFailed) else None;
    r := CopyResult(copy.sink, failure, 2);
  }

  /** The data the copy loop hands to the sink: none when no stream is opened. */
  function StreamData(stream: Option<Stream>): seq<byte>
  {
    if stream.Some? then Flatten(stream.value.chunks) else []
  }

  /** The three groups of writes `writeEntry` makes, with the attachment
      stream opened only when there is one to copy: the head writes, the
      `use` block, the end marker. The sink receives a prefix of the three
      together; the first exception stops the writing; which exception it is
      follows from how far the sink's room reaches. */
  method WriteInParts(
    sink: Sink, headWrites: seq<seq<byte>>, stream: Option<Stream>, endWrites: seq<seq<byte>>)
    returns (r: WriteResult)
    ensures var all := Flatten(headWrites) + StreamData(stream) + Flatten(endWrites);
      && sink.written <= r.sink.written
      && r.sink.written[|sink.written|..] <= all
      && (r.outcome.Pass? <==>
           && Fits(sink, |all|)
           && !(stream.Some? && stream.value.failsAfterChunks)
           && !(stream.Some? && stream.value.closeFails))
      && (r.outcome.Pass? ==> r.sink.written == sink.written + all)
      && (r.outcome.Fail? && r.outcome.error.cause == SinkWriteFailed ==>
           && sink.room.Some? && sink.room.value < |all|
           && r.sink.written == sink.written + all[..sink.room.value])
    ensures var reached := Fits(sink, |Flatten(headWrites)| + |StreamData(stream)|);
      && (r.outcome.Fail? ==>
           (r.outcome.error.cause == StreamReadFailed <==>
             stream.Some? && stream.value.failsAfterChunks && reached))
      && (r.outcome.Fail? ==>
           (r.outcome.error.cause == StreamCloseFailed <==>
             stream.Some? && !stream.value.failsAfterChunks && stream.value.closeFails && reached))
      && (r.outcome.Fail? && r.outcome.error.cause != SinkWriteFailed ==>
           r.sink.written == sink.written + (Flatten(headWrites) + StreamData(stream)))
      && r.streamCloses ==
           if stream.None? || !Fits(sink, |Flatten(headWrites)|) then 0
           else if reached && !stream.value.failsAfterChunks then 2
           else 1
  {
    var head := Flatten(headWrites);
    var content := StreamData(stream);
    var end := Flatten(endWrites);
    var headStep := WriteAll(sink, headWrites);
    if !headStep.ok {
      PutConcat(sink, head, content + end);
      assert head + content + end == head + (content + end);
      return WriteResult(headStep.sink, Fail(DatabaseOutputException(SinkWriteFailed)), 0);
    }
    PutConcat(sink, head, content);
    PutConcat(sink, head + content, end);
    var s := headStep.sink;
    var closes := 0;
    if stream.Some? {
      var copy := CopyAttachment(s, stream.value);
      if copy.failure.Some? {
        return WriteResult(copy.sink, Fail(DatabaseOutputException(copy.failure.value)), copy.closes);
      }
      closes := copy.closes;
      s := copy.sink;
    } else {
      assert content == [] && head + content == head;
    }
    var endStep := WriteAll(s, endWrites);
    var outcome := if endStep.ok then Pass else Fail(DatabaseOutputException(SinkWriteFailed));
    r := WriteResult(endStep.sink, outcome, closes);
  }

  /** The copy loop runs to the end of the stream without an exception. */
  predicate CopyCompletes(table: CodeTable, h: Helpers, e: Entry, key: CipherKey, sink: Sink)
    requires e.parent.Some?
  {
    && StreamOpened(table, h, e, sink)
    && Fits(sink, |HeadBytes(table, h, e)| + |AttachmentContent(e, key)|)
    && !OpenStream(e, key).failsAfterChunks
  }

  /** `writeEntry`. The sink receives a prefix of the record, all of it
      exactly when nothing throws; a failing sink keeps every byte it accepted;
      an IOException, from the sink, the stream's reads or its `close()`,
      becomes a DatabaseOutputException carrying it; and an opened stream is
      closed on every path (once when an exception leaves the copy loop,
      twice, by the explicit `close()` and by `use`, when the copy completes,
      whether or not either call throws). */
  method WriteEntry(table: CodeTable, h: Helpers, e: Entry, key: CipherKey, sink: Sink)
    returns (r: WriteResult)
    requires e.parent.Some?
    ensures sink.written <= r.sink.written
    ensures r.sink.written[|sink.written|..] <= Record(table, h, e, key)
    ensures r.outcome.Pass? <==>
      Fits(sink, |Record(table, h, e, key)|) && !StreamFails(e, key) && !CloseFails(e, key)
    ensures r.outcome.Pass? ==> r.sink.written == sink.written + Record(table, h, e, key)
    ensures r.outcome.Fail? ==>
      (r.outcome.error.cause == StreamReadFailed <==>
        StreamFails(e, key) && Fits(sink, |HeadBytes(table, h, e)| + |AttachmentContent(e, key)|))
    ensures r.outcome.Fail? ==>
      (r.outcome.error.cause == StreamCloseFailed <==>
        CopyCompletes(table, h, e, key, sink) && CloseFails(e, key))
    ensures r.outcome.Fail? && r.outcome.error.cause == SinkWriteFailed ==>
      && sink.room.Some? && sink.room.value < |Record(table, h, e, key)|
      && r.sink.written == sink.written + Record(table, h, e, key)[..sink.room.value]
    ensures r.outcome.Fail? && r.outcome.error.cause == StreamReadFailed ==>
      && StreamFails(e, key)
      && r.sink.written[|sink.written|..] + EndBytes(table, h, e) == Record(table, h, e, key)
    ensures r.outcome.Fail? && r.outcome.error.cause == StreamCloseFailed ==>
      r.sink.written[|sink.written|..] + EndBytes(table, h, e) == Record(table, h, e, key)
    ensures r.streamCloses ==
      if !StreamOpened(table, h, e, sink) then 0
      else if CopyCompletes(table, h, e, key, sink) then 2
      else 1
  {
    RecordIsHeadDataEnd(table, h, e, key);
    var stream := if AttachmentLength(e) > 0 then Some(OpenStream(e, key)) else None;
    r := WriteInParts(sink, HeadWrites(table, h, e), stream, EndWrites(table, h, e));
  }
}

=== FILE: sinks.dfy ===
/** The output byte sink the entry encoder writes to.

    A sink keeps everything written to it. It may fail: a sink with
    `room == Some(k)` accepts k more bytes and throws an IOException on the
    write that would go past them, keeping the bytes it accepted. A sink
    with `room == None` never fails. */
module Sinks {
  import opened Wrappers
  import opened Bytes

  datatype Sink = Sink(written: seq<byte>, room: Option<nat>)

  /** The sink after a write, and whether the write returned normally. */
  datatype Step = Step(sink: Sink, ok: bool)

  /** True when `n` more bytes can be written without a failure. */
  predicate Fits(s: Sink, n: nat)
  {
    s.room.None? || n <= s.room.value
  }

  /** One `OutputStream.write(bytes)` call. */
  function Put(s: Sink, b: seq<byte>): (r: Step)
    ensures r.ok <==> Fits(s, |b|)
    ensures s.written <= r.sink.written
    ensures r.sink.written[|s.written|..] <= b
    ensures r.ok ==> r.sink.written == s.written + b
    ensures !r.ok ==> |r.sink.written| == |s.written| + s.room.value && r.sink.room == Some(0)
  {
    if s.room.None? then Step(Sink(s.written + b, None), true)
    else if |b| <= s.room.value then Step(Sink(s.written + b, Some(s.room.value - |b|)), true)
    else Step(Sink(s.written + b[..s.room.value], Some(0)), false)
  }

  /** Writing `a` then `b` is writing `a + b`, and a write that fails on `a`
      fails at the same point whatever follows it. */
  lemma PutConcat(s: Sink, a: seq<byte>, b: seq<byte>)
    ensures Put(s, a).ok ==> Put(Put(s, a).sink, b) == Put(s, a + b)
    ensures !Put(s, a).ok ==> Put(s, a + b) == Put(s, a)
  {
    assert s.written + a + b == s.written + (a + b);
    if s.room.Some? && |a| > s.room.value {
      assert (a + b)[..s.room.value] == a[..s.room.value];
    } else if s.room.Some? {
      var k := s.room.value - |a|;
      if |b| > k {
        assert (a + b)[..s.room.value] == a + b[..k];
        assert s.written + a + b[..k] == s.written + (a + b[..k]);
      }
    }
  }

  lemma PutNothing(s: Sink)
    ensures Put(s, []) == Step(s, true)
  {
    assert s.written + [] == s.written;
  }

  /** Writes the chunks one `write` call after the other, stopping at the
      first call that throws (the `readBytes { write(buffer) }` copy loop). */
  method WriteAll(s: Sink, writes: seq<seq<byte>>) returns (r: Step)
    ensures r == Put(s, Flatten(writes))
  {
    PutNothing(s);
    r := Step(s, true);
    var i := 0;
    while i < |writes| && r.ok
      invariant 0 <= i <= |writes|
      invariant r.ok ==> r == Put(s, Flatten(writes[..i]))
      invariant !r.ok ==> r == Put(s, Flatten(writes))
      decreases |writes| - i
    {
      assert writes[..i + 1] == writes[..i] + [writes[i]];
      FlattenSnoc(writes[..i], writes[i]);
      PutConcat(s, Flatten(writes[..i]), writes[i]);
      r := Put(r.sink, writes[i]);
      i := i + 1;
      if !r.ok {
        assert writes == writes[..i] + writes[i..];
        FlattenConcat(writes[..i], writes[i..]);
        PutConcat(s, Flatten(writes[..i]), Flatten(writes[i..]));
      }
    }
    if r.ok {
      assert writes[..i] == writes;
    }
  }
}

=== FILE: utf8.dfy ===
/** UTF-8 as defined by RFC 3629, over Unicode scalar values (Dafny `char`):
    the encoding `String.toByteArray(UTF-8)` produces, and a decoder that
    undoes it. */
module Utf8 {
  import opened Wrappers
  import opened Bytes

  const Nul: char := 0 as char

  predicate IsContinuation(b: byte)
  {
    0x80 <= b < 0xC0
  }

  /** The one to four bytes of a single scalar value (section 3 of RFC 3629). */
  function EncodeChar(c: char): (r: seq<byte>)
    ensures 1 <= |r| <= 4
    ensures c != Nul ==> forall i :: 0 <= i < |r| ==> r[i] != 0
    ensures forall i :: 1 <= i < |r| ==> IsContinuation(r[i])
  {
    var cp := c as int;
    if cp < 0x80 then [cp]
    else if cp < 0x800 then [0xC0 + cp / 0x40, 0x80 + cp % 0x40]
    else if cp < 0x1_0000 then [0xE0 + cp / 0x1000, 0x80 + cp / 0x40 % 0x40, 0x80 + cp % 0x40]
    else [0xF0 + cp / 0x4_0000, 0x80 + cp / 0x1000 % 0x40, 0x80 + cp / 0x40 % 0x40, 0x80 + cp % 0x40]
  }

  function Encode(s: string): seq<byte>
  {
    if |s| == 0 then [] else EncodeChar(s[0]) + Encode(s[1..])
  }

  /** Reads one scalar value from the front of `b`: the value and how many
      bytes it took, or None for an ill-formed sequence (overlong forms,
      surrogates and values above U+10FFFF are rejected). */
  function DecodeChar(b: seq<byte>): (r: Option<(char, nat)>)
    requires |b| > 0
    ensures r.Some? ==> 1 <= r.value.1 <= |b|
  {
    var b0 := b[0] as int;
    if b0 < 0x80 then Some((b0 as char, 1))
    else if 0xC2 <= b0 < 0xE0 then
      if |b| < 2 || !IsContinuation(b[1]) then None
      else Some((((b0 - 0xC0) * 0x40 + (b[1] as int - 0x80)) as char, 2))
    else if 0xE0 <= b0 < 0xF0 then
      if |b| < 3 || !IsContinuation(b[1]) || !IsContinuation(b[2]) then None
      else
        var cp := (b0 - 0xE0) * 0x1000 + (b[1] as int - 0x80) * 0x40 + (b[2] as int - 0x80);
        if cp < 0x800 || (0xD800 <= cp < 0xE000) then None else Some((cp as char, 3))
    else if 0xF0 <= b0 < 0xF5 then
      if |b| < 4 || !IsContinuation(b[1]) || !IsContinuation(b[2]) || !IsContinuation(b[3]) then None
      else
        var cp := (b0 - 0xF0) * 0x4_0000 + (b[1] as int - 0x80) * 0x1000
          + (b[2] as int - 0x80) * 0x40 + (b[3] as int - 0x80);
        if cp < 0x1_0000 || cp > 0x10_FFFF then None else Some((cp as char, 4))
    else None
  }

  function Decode(b: seq<byte>): Option<string>
    decreases |b|
  {
    if |b| == 0 then Some([])
    else match DecodeChar(b)
      case None => None
      case Some((c, n)) =>
        match Decode(b[n..])
        case None => None
        case Some(rest) => Some([c] + rest)
  }

  lemma DecodeEncodeTwo(c: char, rest: seq<byte>)
    requires 0x80 <= c as int < 0x800
    ensures DecodeChar(EncodeChar(c) + rest) == Some((c, 2))
  {
    var cp := c as int;
    var b := EncodeChar(c) + rest;
    assert b[0] as int == 0xC0 + cp / 0x40 && b[1] as int == 0x80 + cp % 0x40;
    assert (b[0] as int - 0xC0) * 0x40 + (b[1] as int - 0x80) == cp;
  }

  lemma DecodeEncodeThree(c: char, rest: seq<byte>)
    requires 0x800 <= c as int < 0x1_0000
    ensures DecodeChar(EncodeChar(c) + rest) == Some((c, 3))
  {
    var cp := c as int;
    var hi, mid, lo := cp / 0x1000, cp / 0x40 % 0x40, cp % 0x40;
    assert cp == hi * 0x1000 + mid * 0x40 + lo;
    var b := EncodeChar(c) + rest;
    assert b[0] as int == 0xE0 + hi && b[1] as int == 0x80 + mid && b[2] as int == 0x80 + lo;
  }

  /** The four base-64 digits of a supplementary code point put back together. */
  lemma FourDigits(cp: int)
    requires 0 <= cp
    ensures cp == cp / 0x4_0000 * 0x4_0000 + cp / 0x1000 % 0x40 * 0x1000 + cp / 0x40 % 0x40 * 0x40 + cp % 0x40
  {
    var q := cp / 0x40;
    assert cp == q * 0x40 + cp % 0x40;
    var p := q / 0x40;
    assert q == p * 0x40 + q % 0x40;
    assert p == cp / 0x1000;
    assert p == p / 0x40 * 0x40 + p % 0x40;
    assert p / 0x40 == cp / 0x4_0000;
  }

  lemma DecodeEncodeFour(c: char, rest: seq<byte>)
    requires 0x1_0000 <= c as int
    ensures DecodeChar(EncodeChar(c) + rest) == Some((c, 4))
  {
    var cp := c as int;
    FourDigits(cp);
    var b := EncodeChar(c) + rest;
    assert b[0] as int - 0xF0 == cp / 0x4_0000 && b[1] as int - 0x80 == cp / 0x1000 % 0x40;
    assert b[2] as int - 0x80 == cp / 0x40 % 0x40 && b[3] as int - 0x80 == cp % 0x40;
  }

  lemma DecodeEncodeChar(c: char, rest: seq<byte>)
    ensures DecodeChar(EncodeChar(c) + rest) == Some((c, |EncodeChar(c)|))
  {
    var cp := c as int;
    if cp < 0x80 {
    } else if cp < 0x800 {
      DecodeEncodeTwo(c, rest);
    } else if cp < 0x1_0000 {
      DecodeEncodeThree(c, rest);
    } else {
      DecodeEncodeFour(c, rest);
    }
  }

  /** Decoding undoes encoding: the UTF-8 form of a string determines it. */
  lemma {:induction false} DecodeEncode(s: string)
    ensures Decode(Encode(s)) == Some(s)
    decreases |s|
  {
    if |s| > 0 {
      var e := EncodeChar(s[0]);
      DecodeEncodeChar(s[0], Encode(s[1..]));
      assert Encode(s)[|e|..] == Encode(s[1..]);
      DecodeEncode(s[1..]);
      assert [s[0]] + s[1..] == s;
    }
  }

  /** Every character takes one to four bytes. */
  lemma {:induction false} EncodeLength(s: string)
    ensures |s| <= |Encode(s)| <= 4 * |s|
    decreases |s|
  {
    if |s| > 0 {
      EncodeLength(s[1..]);
    }
  }

  /** The UTF-8 form of a string holds a zero byte only for a U+0000 in the
      string, so a NUL after it marks its end. */
  lemma {:induction false} EncodeHasNoNul(s: string)
    requires Nul !in s
    ensures 0 !in Encode(s)
    decreases |s|
  {
    if |s| > 0 {
      assert s[0] in s;
      assert forall c :: c in s[1..] ==> c in s;
      EncodeHasNoNul(s[1..]);
    }
  }

  /** ASCII text is its own UTF-8 form, byte for byte. */
  lemma {:induction false} EncodeAscii(s: string)
    requires forall i :: 0 <= i < |s| ==> s[i] as int < 0x80
    ensures |Encode(s)| == |s|
    ensures forall i :: 0 <= i < |s| ==> Encode(s)[i] == s[i] as int
    decreases |s|
  {
    if |s| > 0 {
      EncodeAscii(s[1..]);
    }
  }
}

=== FILE: wrappers.dfy ===
/** Failure-carrying values shared by the model: an absent value, and the
    outcome of a call that either returns or throws. */
module Wrappers {

  /** A value that may be absent (Kotlin's `T?`). */
  datatype Option<+T> = None | Some(value: T)

  /** A call that returns a value or throws an exception. */
  datatype Result<+R, +E> = Success(value: R) | Failure(error: E)

  /** A call that returns nothing or throws an exception. */
  datatype Outcome<+E> = Pass | Fail(error: E)
}
